=== FILE: README.md ===
# Blood on the Clocktower printable homebrew: a verified model of the non-drawing core

The repository turns a script of homebrew characters into printable material. It makes round
character tokens and reminder tokens, packs them onto letter-size print sheets, lays out the
net of a folding box over several pages, and interactively records how many of each reminder
token to print. This project models the decisions those scripts take that do not depend on
pixels, fonts or files, and proves what they promise.

The modules follow the scripts:

- `Sheets`: what the two print-sheet packers share. This is a token with a size, a placement
  at (x, y), the printable rectangle, and the shelf cursor (x, y, row height, the current
  sheet) with the invariant that every placement is inside the rectangle and separated from
  the earlier ones.
- `PriorityPacker` (src/create_print_sheets.py): the packing loop of `main`. It has the
  character-first priority rule, tokens taken from the end of each list, a deferred token
  that opens the next sheet, and a reminder backfill before each sheet is saved. Proved:
  - every placement lies inside the printable area, and no two on a sheet overlap;
  - every token is placed exactly once, in reverse input order per class;
  - no saved sheet is empty;
  - the loop terminates, given that both token sizes fit the printable area.
- `InOrderPacker` (create_print_sheets.py): the older packer. It places every character
  token and then every reminder token in input order, with no padding, and has the same
  guarantees.
- `BoxLayout` (create_box_layout.py): rectangles and polygons, translation with corner
  ordering, reflection, and the 17 panels and tabs of the box net with their shared edges.
  It also covers the lowest coordinate, the shift of the net to the origin, filing shapes
  into page tiles by floor division, and moving each page's shapes to the margin.
- `TextLayout` (create_tokens.py): the width of the token's text circle at a line, the
  greedy word wrap under a per-line width bound, the 46/44/42 font-size search for the
  ability text, the reminder-text wrap, and the three-size choice for the name. Font
  measurement is a function parameter. So is the square root, which is constrained by
  `IsSqrtOf` wherever a proof needs it.
- `Tokens` (create_tokens.py): the background chosen from the night-order keys, the rule
  that skips records without an id, and the file names of character and reminder tokens.
- `ReminderCounts` (update_reminder_counts.py): the merge of the `...tokens` helper records
  into their characters, the reading of typed answers, and the rebuilt reminder list. The
  typed lines are an input sequence; reading past its end is the `EndOfInput` failure.
  KeyError and the unhashable-entry TypeError are failures too.
- `Strings`, `Characters`, `Wrappers`: Python's `split`, `strip`, `lower`, `upper`,
  `replace`, `in`, `int` and string order on `seq<char>`; the character record; `Option`
  and `Result`.

Where a comment and the code disagree, the model follows the code:
- A blank answer to a count question counts 1. The comment at update_reminder_counts.py:11
  and the banner at line 40 say 0.
- The ability font search starts at 46, not 48, because the size is decremented before the
  first try.

## Model

| member | source | states |
|---|---|---|
| Sheets.WellPackedNoOverlap | src/create_print_sheets.py:164-165 | Placements that each start at least the padding past the end of every earlier one, to the right in the same row or below it, never share a pixel, in either order. |
| Sheets.SheetsNoOverlap | create_print_sheets.py:84-108 | On every saved sheet whose tokens lie inside the printable area and are padded apart, no two pasted tokens overlap. |
| Sheets.NewRow | src/create_print_sheets.py:111-114 | Wrapping moves the cursor to the left margin, down by the row height, and resets the row height to 0. It keeps the sheet, and every earlier placement stays in a row above the new cursor. |
| Sheets.Place | src/create_print_sheets.py:154-165 | Pasting a token that fits below and right of the cursor adds exactly that placement at the cursor. The cursor then moves right by the token's size plus the padding, on the same row, and the row height becomes the larger of itself and size plus padding. Every placement stays inside the printable area and separated from later ones. |
| Sheets.ShelveAllSheet | src/create_print_sheets.py:110-165 | Shelving tokens one by one (wrap when the row is full, paste at the cursor, advance by size plus padding) keeps the sheet so far as a prefix. It appends exactly one placement per token, holding those tokens in order. |
| Sheets.FreshFirst | src/create_print_sheets.py:116-152 | On a fresh sheet a token that fits the printable area needs no wrap and fits the page height. It is pasted first, at the top-left margin. |
| Sheets.ReverseIndex | src/create_print_sheets.py:97-103 | Repeated `pop()` order: the i-th element taken is the i-th from the end of the input. |
| PriorityPacker.SourceConfigFits | src/create_print_sheets.py:5-29 | With the script's constants (225 px margin, 2850 x 2100 printable, 525 and 300 px tokens, 18 px padding) both token sizes fit the printable area. |
| PriorityPacker.Choose | src/create_print_sheets.py:93-105 | A character token is chosen whenever one remains and fits the row. A reminder is chosen while characters remain only when no character fits and a reminder does. The chosen list is never empty. |
| PriorityPacker.Backfill | src/create_print_sheets.py:121-142 | Only reminder tokens are added, from the end of the list, and each fits the page. Backfill stops only when the list is empty or a reminder no longer fits the page height. When a reminder fits the rest of the row but not the page height, nothing is added. The returned cursor is the starting cursor with the added reminders shelved onto it one by one, followed by one more row wrap for the reminder that did not fit. |
| PriorityPacker.BackfillTurn | src/create_print_sheets.py:122-142 | One backfill turn wraps when the reminder does not fit the row. It stops exactly when the reminder then overflows the page height, and otherwise pastes the last reminder at the wrapped cursor, extending the shelf of added reminders. |
| PriorityPacker.Take | src/create_print_sheets.py:86-105 | The deferred token is taken first. Otherwise the token comes from the end of the list `Choose` names, and the remaining work strictly decreases. |
| PriorityPacker.Put | src/create_print_sheets.py:107-165 | The token in hand is either pasted at the cursor, after a wrap if the row is full, or deferred to a fresh sheet when it overflows the page. It stays pending exactly when it does not fit below the wrapped cursor. When it fits, it is pasted at the wrapped cursor and no sheet is saved. Otherwise exactly one sheet is saved: the current sheet with its reminder backfill from the wrapped cursor. The loop invariant is kept, and the measure decreases whenever the sheet was empty. |
| PriorityPacker.Defer | src/create_print_sheets.py:116-152 | A token that overflows the page is kept pending, and the cursor returns to the page's top-left margin. Exactly one sheet is appended to the saved ones, and it is non-empty. It is the cursor's sheet followed by the reminders backfilled from the end of the list, shelved from the cursor, until the list ran out or the next reminder overflowed the page. |
| PriorityPacker.PastedAccounted | src/create_print_sheets.py:154-165 | Pasting the token in hand keeps every token accounted for: placed, in hand, or still in its list. |
| PriorityPacker.SavedAccounted | src/create_print_sheets.py:144-152 | Saving a sheet with its backfill keeps every token accounted for and every saved sheet non-empty and well packed. |
| PriorityPacker.Pack | src/create_print_sheets.py:77-170 | For any two lists of tokens that fit the page: every sheet is non-empty, inside the printable area and overlap-free. Each class is pasted exactly once per token, in reverse input order, at its diameter. No tokens means no sheets. |
| PriorityPacker.Finish | src/create_print_sheets.py:167-170 | Saving the last sheet only when it has content completes the packing with no empty sheet. |
| PriorityPacker.PackSheets | src/create_print_sheets.py:70-72 | The script as written: with no character tokens it produces no sheet whatever the reminders. Otherwise the packing is complete. |
| PriorityPacker.GuardLosesReminders | src/create_print_sheets.py:70-72 | With reminder tokens but no character tokens, an empty result does not pack them. |
| PriorityPacker.PackSheetsFixed | src/create_print_sheets.py:66-170 | With the guard testing both lists, every token of either class is packed and empty input yields no sheet. |
| InOrderPacker.SourceConfigFits | create_print_sheets.py:5-26 | With the script's constants (420 px margin, 5760 x 4260 printable, 1050 and 600 px tokens) both token sizes fit the printable area. |
| InOrderPacker.Items | create_print_sheets.py:60-64 | The list to print is every character token at the character size followed by every reminder token at the reminder size, in input order. |
| InOrderPacker.Step | create_print_sheets.py:80-108 | One token is placed, after a wrap and a sheet change where needed. When it fits below the wrapped cursor it is pasted there and nothing is saved. Otherwise the current sheet is saved and the token is pasted first on a fresh sheet at the top-left margin. Only non-empty sheets are saved, and the placements so far grow by exactly that token. |
| InOrderPacker.PackInOrder | create_print_sheets.py:66-113 | For any padding, including the script's none: every sheet is non-empty, and its tokens lie inside the printable area, pairwise padded apart. The tokens pasted, in order, are exactly the list to print. There are no sheets exactly when there are no tokens. |
| InOrderPacker.SaveLast | create_print_sheets.py:110-113 | The last sheet is saved exactly when something was pasted on it. |
| BoxLayout.Translate | create_box_layout.py:34-44 | A rectangle gets both corners shifted and comes out with its corners ordered. A polygon gets every vertex shifted and keeps its length. |
| BoxLayout.TranslateInverse | create_box_layout.py:34-44 | Shifting by (-dx, -dy) undoes a shift by (dx, dy) on any shape with ordered corners. |
| BoxLayout.TranslateCompose | create_box_layout.py:34-44 | Two shifts equal one shift by their sum. |
| BoxLayout.Reflect | create_box_layout.py:47-56 | Each vertex has x negated when reflecting about the y axis and y negated when reflecting about the x axis. The length is kept. |
| BoxLayout.ReflectDefault | create_box_layout.py:47 | With the default arguments x is negated and y kept. |
| BoxLayout.ReflectTwice | create_box_layout.py:47-56 | Reflecting twice about the same axes is the identity. |
| BoxLayout.BoxShapes | create_box_layout.py:131-149 | The net has 17 shapes. The first is the lid, the next twelve come as side panel, layer-2 panel and tab for each side, and the last four are the corner tabs: the lid and the side and layer-2 panels are rectangles, every tab a polygon. |
| BoxLayout.BoxShapeNamesDistinct | create_box_layout.py:131-149 | No two shapes of the net share a name. |
| BoxLayout.SharedEdges | create_box_layout.py:71-126 | Each side, top and bottom panel has its inner edge on the line of the lid's matching edge, and each layer-2 panel has its inner edge on the line of its panel's outer edge. The first and last vertex of every glue tab lie on the line of the outer edge of its layer-2 panel; the corner tabs start and end exactly at that panel's corners. |
| BoxLayout.LowestCord | create_box_layout.py:222-234 | The result is the least x and the least y over every stored coordinate of every shape, both attained. There is no result (the source's infinity) exactly when there is no coordinate. |
| BoxLayout.NormalizeLowest | create_box_layout.py:261-264 | After the net is shifted by minus its lowest coordinate, the least x and the least y are both 0. |
| BoxLayout.TileOf | create_box_layout.py:170-181 | A point's tile is the column and row whose page-sized cell contains it, also for negative coordinates. |
| BoxLayout.GridOnTile | create_box_layout.py:161-193 | The grid has an entry for a tile exactly when some shape touches it. That entry lists the shapes touching the tile, each once, in list order. |
| BoxLayout.PlaceTileLowest | create_box_layout.py:270-276 | After a page's shapes are moved, their least x and least y are both the 70 px margin. |
| BoxLayout.SplitSheets | create_box_layout.py:260-276 | The pages are the tiles the normalised net touches. Each page holds that tile's shapes moved to the margin. |
| TextLayout.ChordWidthBounds | create_tokens.py:163-171 | The usable width at a distance from the centre is never negative and never more than the diameter. It is 0 at or beyond the radius. |
| TextLayout.MaxLineWidthBounds | create_tokens.py:152-171 | The width available to a text line is between 0 and 82% of the image width. It is 0 when the line's bottom edge is at least the text radius from the centre line. |
| TextLayout.MaxLineWidthSymmetric | create_tokens.py:152-171 | Lines whose bottom edges are equally far above and below the centre line get the same width. |
| TextLayout.WrapShape | create_tokens.py:206-217 | The greedy wrap gives back the words it was given, in order. Every line of two or more words fits its line's bound, and only the first line can be blank. A line was ended only because the next word would not fit on it. |
| TextLayout.CalculateAbilityLayout | create_tokens.py:174-224 | An empty ability gets no layout (font size 50). Otherwise the size is 46, 44 or 42, and the lines are the wrap at that size. A size other than 42 keeps within its line budget. Every larger size tried was over budget. |
| TextLayout.AbilityLinesKeepWords | create_tokens.py:198-219 | At any size the ability's wrapped lines hold its words in order, and each line of two or more words fits the circle where it is drawn. |
| TextLayout.ReminderLines | create_tokens.py:253-271 | The reminder's lines hold its words in order, and each line of two or more words fits 80% of the image width at size 60. |
| TextLayout.NameFontSize | create_tokens.py:314-333 | An empty name is not drawn. Otherwise the upper-cased name gets 120 when it fits 60% of the width, else 90 when it fits there, else 74. Any size other than 74 fits. |
| Tokens.ChooseBackground | create_tokens.py:16-26 | The background is "both", "first", "other" or "none" exactly as the firstNight and otherNight keys are present, whatever their values. |
| Tokens.BackgroundByPresence | create_tokens.py:16-26 | Two records get the same background exactly when they have the same night keys, and different backgrounds are looked up under different keys. |
| Tokens.PathJoin | create_tokens.py:354 | The joined path is `b` when `b` is absolute. Otherwise it starts with `a` and ends with `b`. |
| Tokens.TeamDir | create_tokens.py:354 | The team directory is the team lower-cased with each space turned into `_`, character by character. So it has the team's length, no space and no upper-case letter. |
| Tokens.CharacterTokenFile | create_tokens.py:347-378 | There is no file exactly when the id is missing, empty or `_meta`. Otherwise the file is `<id>.png` directly under the output directory when there is no team, and under the joined team directory when there is one. |
| Tokens.TeamTokenFile | create_tokens.py:352-359 | For a relative output directory without a trailing slash, a team character's file is `<out>/<team dir>/<id>.png`. |
| Tokens.ReminderTokenFiles | create_tokens.py:245-306 | One file per reminder, in list order, each named from its reminder and its index. A record without reminders gets none. |
| Tokens.ReminderFilesDistinct | create_tokens.py:305-306 | Two reminders at different indexes never share a file, even with equal texts. |
| ReminderCounts.ClassifyNumber | update_reminder_counts.py:10-16 | A decimal number typed with any surrounding blanks is read as that number. |
| ReminderCounts.ClassifyBlank | update_reminder_counts.py:12-13 | A line of blanks is a blank answer, and a blank answer counts 1. |
| ReminderCounts.AskFails | update_reminder_counts.py:8-18 | Asking fails, with end of input, exactly when no remaining line is an accepted answer. |
| ReminderCounts.AskReads | update_reminder_counts.py:8-18 | Asking skips the invalid lines and answers with the count of the first accepted line, leaving the lines after it unread. |
| ReminderCounts.SortedUniqueSpec | update_reminder_counts.py:50 | The distinct reminders are strictly ascending and hold exactly the texts of the list. |
| ReminderCounts.SortedUniqueDetermined | update_reminder_counts.py:50 | A strictly ascending list is determined by its elements, so the distinct reminders are the one list with that property. |
| ReminderCounts.RebuildFails | update_reminder_counts.py:53-59 | Rebuilding a reminder list stops early only because the typed input runs out. |
| ReminderCounts.RebuildEnough | update_reminder_counts.py:53-59 | With an accepted answer ready for every text, rebuilding succeeds and reads exactly one line per text. |
| ReminderCounts.RebuildEntries | update_reminder_counts.py:53-59 | The rebuilt list has at most one entry per text. Every entry is a counted entry with a positive count for a text of the old list. |
| ReminderCounts.RebuildSorted | update_reminder_counts.py:50-61 | From the sorted distinct texts the rebuilt list comes out counted, positive, drawn from those texts, and strictly ascending. |
| ReminderCounts.RebuildAsks | update_reminder_counts.py:52-57 | Rebuilding succeeds exactly when one question per text can be answered in turn. It then reads the same lines as asking that many questions. |
| ReminderCounts.RebuildKeeps | update_reminder_counts.py:53-59 | For sorted distinct texts, the text at position i is kept with count n exactly when the i-th answer is a number n and n is positive. |
| ReminderCounts.RebuildDrops | update_reminder_counts.py:53-59 | For sorted distinct texts, the text at position i appears in the rebuilt list exactly when the i-th answer is a number greater than 0. A skipped question or a count of 0 or less drops it. |
| ReminderCounts.RebuildAllBlank | update_reminder_counts.py:53-59 | Answering every question with a blank line keeps every text with a count of 1. |
| ReminderCounts.TargetId | update_reminder_counts.py:76 | Removing `tokens` from a helper's id makes it strictly shorter. |
| ReminderCounts.NoSelfMerge | update_reminder_counts.py:75-78 | No record merges its reminders into itself. |
| ReminderCounts.MergedKeeps | update_reminder_counts.py:79-82 | A record no helper matches keeps its reminders. A matched record ends with a list that starts with its own reminders. |
| ReminderCounts.MergedGathers | update_reminder_counts.py:79-82 | Every reminder of a helper ends up in the list of each record it matches. |
| ReminderCounts.SourceUnmerged | update_reminder_counts.py:74-82 | Under the no-sharing precondition a helper record keeps its own reminders throughout the merge. |
| ReminderCounts.MergeSource | update_reminder_counts.py:76-82 | One helper's pass appends its reminders to exactly the records it matches, or hands them over when a record has none. It fails with KeyError exactly at a record without id, or at a match when the helper has no reminders. |
| ReminderCounts.Combine | update_reminder_counts.py:73-82 | The merge fails, with KeyError, exactly when a record lacks an id or a matched helper lacks reminders. Otherwise the result is the merged records `Combined`. |
| ReminderCounts.CombinedMeaning | update_reminder_counts.py:73-82 | In the merged records only reminders change. A record no helper matches is unchanged. A matched record's reminders start with its own list and hold every reminder of every matching helper. |
| ReminderCounts.UpdateOneSpec | update_reminder_counts.py:42-62 | A record without a non-empty reminder list is returned unchanged. Otherwise a missing ability is a KeyError, a counted entry is unhashable, and a rebuild fails only when the input ends. Any result has only its reminders changed, to counted, ascending, distinct entries for its own texts. |
| ReminderCounts.UpdateAllSpec | update_reminder_counts.py:42-64 | The output has the input's length and order. Each record relates to its input record as the single-record update says. |
| ReminderCounts.UpdateAllFails | update_reminder_counts.py:42-64 | The update fails only at end of input, or with KeyError or TypeError at an asked-about record that lacks its ability or holds a counted entry. |
| ReminderCounts.UpdateReminderCounts | update_reminder_counts.py:33-64 | End to end: a failing merge is a KeyError. Otherwise the script fails exactly when the update of the merged records does. On success every merged record is updated in place, keeping length and order. |
| Strings.Strip | update_reminder_counts.py:12 | The stripped text starts and ends with no white space and is no longer than the line. It is empty exactly when the line is all white space. |
| Strings.StripSlice | update_reminder_counts.py:12 | The stripped text is a slice of the line with only white space before and after it. Together with `Strip`'s contract, it is the line with its leading and trailing white space cut off. |
| Strings.LexLessTotal | update_reminder_counts.py:50 | Any two different texts are ordered one way or the other. |

## Left out

- Every image operation is left out: opening, cropping, resizing, pasting, drawing text and saving. Placements are records of (token, x, y); token lists are inputs, not a directory walk.
- Image-load failures are left out. The packers' `except Exception: continue` branches are not modelled; every paste is taken to succeed.
- `arc_text.py` is not part of this model. It is trigonometry and raster rotation for drawing the name along an arc.
- The character-image download, cache and retries, and the 0.97 portrait shrink loop are not part of this model. They are network, image and floating-point work.
- JSON reading and writing, and every `print`, are left out. The START_X/START_Y debug drawing of the whole box net is left out too.
- InOrderPacker.PackInOrder: the padding is a parameter of the model. The script pastes tokens edge to edge, which is `InOrderPacker.SourceConfig` with padding 0; the contract holds for every padding.
- PriorityPacker.SourceConfig and InOrderPacker.SourceConfig: the pixel constants are the values of the scripts' `int(inches * DPI)`, computed by hand. The floating-point products themselves are not modelled.
- BoxLayout.Box: the insert-tab offset and extension (`d*0.15`, `h*0.25` in the source, floats) are integer parameters, so the insert tabs' coordinates are exact.
- TextLayout.CalculateAbilityLayout: the line budget `(100 - size) // 10.8` is floating-point floor division and is the parameter `maxLines`. The font's line height and `getlength` are parameters too, so the property is stated for every measure.
- TextLayout.MaxLineWidthBounds: the square root is a parameter, required to be exact where a proof needs it; floating-point rounding is not modelled.
- Strings.Lower, Strings.Upper: ASCII letters only. Python's Unicode case mapping (which can change a text's length, e.g. `ß` to `SS`) is not modelled.
- Strings.IsSpace: the ASCII white space that `split` and `strip` use. Python's other Unicode white space is not modelled.
- Strings.IntValue: optional sign and ASCII digits only. `int()` also accepts `_` between digits and non-ASCII digits; the model classifies such lines as invalid, so it asks again where Python would accept them.
- ReminderCounts.Combine: requires `NoSharedMerge`, meaning no merge target is itself a helper, and a target without reminders is matched by one helper only. Line 82 hands the helper's list object to the target, so with two helpers the second `extend` would also change the first helper's list. The model copies values and is faithful only when that cannot happen.
- ReminderCounts.MergeSource: requires `NoSharedMerge` too, for the same aliasing reason; it is one helper's pass of that merge.
- ReminderCounts.UpdateReminderCounts: requires `NoSharedMerge` too, since it runs that merge first.
- A `reminders` value that is not a list (a string, say) is not modelled; the record holds a list of entries. The same goes for a `team` or `id` that is not a string.
- Tokens.ReminderTokenFiles: requires every reminder to be a text. The token generator reads scripts before counts are added; a counted entry there would make `replace` fail, which is not modelled.
- The `name` lookups with defaults (`character.get("name", ...)`) feed only printed messages and are left out.

## Findings

| source | as written | input that shows it | evidently intended | confidence | as-written member | corrected member |
|---|---|---|---|---|---|---|
| src/create_print_sheets.py:70 | `if not character_tokens and not character_tokens:` returns before packing | no character token images and one or more reminder token images: the script reports that no token images were found and writes no sheet | `if not character_tokens and not reminder_tokens:`, matching the message "No token images found" | high; not executed | PriorityPacker.PackSheets (with PriorityPacker.GuardLosesReminders) | PriorityPacker.PackSheetsFixed |

=== FILE: box_layout.dfy ===
/** The flat net of a lidded box (create_box_layout.py): the panels and glue tabs as rectangles
    and polygons in pixel coordinates, their translation and reflection, the lowest coordinate
    of a shape list, and the split of the net into printable page-sized tiles. */
module BoxLayout {
  import opened Wrappers

  /** MARGIN_PX: 0.7 inch at 100 DPI. */
  const Margin: int := 70
  /** PRINTABLE_WIDTH_PX: an 8.5 inch page less two margins, at 100 DPI. */
  const PrintableWidth: int := 710
  /** PRINTABLE_HEIGHT_PX: an 11 inch page less two margins, at 100 DPI. */
  const PrintableHeight: int := 960

  datatype Point = Point(x: int, y: int)

  /** A shape is stored either as a rectangle `(x1, y1, x2, y2)` (a Python tuple) or as a
      polygon, a list of vertices (a Python list). */
  datatype Shape = Rect(x1: int, y1: int, x2: int, y2: int) | Poly(points: seq<Point>)

  /** One entry of the shape list: `{'name': ..., 'cords': ...}`. */
  datatype Named = Named(name: string, shape: Shape)

  function Min(a: int, b: int): int {
    if a <= b then a else b
  }

  function Max(a: int, b: int): int {
    if a <= b then b else a
  }

  /** A rectangle with its corners in order; polygons always are. */
  predicate Normal(s: Shape) {
    s.Rect? ==> s.x1 <= s.x2 && s.y1 <= s.y2
  }

  /** `_add_constant_to_cords` (source lines 34-44): a rectangle has both corners shifted and is
      then put in corner order; a polygon has every vertex shifted. */
  function Translate(s: Shape, dx: int, dy: int): (r: Shape)
    ensures r.Rect? == s.Rect? && Normal(r)
    ensures s.Rect? ==>
              r == Rect(Min(s.x1, s.x2) + dx, Min(s.y1, s.y2) + dy, Max(s.x1, s.x2) + dx, Max(s.y1, s.y2) + dy)
    ensures s.Poly? ==> |r.points| == |s.points|
    ensures s.Poly? ==> forall i :: 0 <= i < |s.points| ==>
              r.points[i] == Point(s.points[i].x + dx, s.points[i].y + dy)
  {
    match s
    case Rect(x1, y1, x2, y2) =>
      var x, x' := x1 + dx, x2 + dx;
      var y, y' := y1 + dy, y2 + dy;
      var x, x' := if x > x' then x' else x, if x > x' then x else x';
      var y, y' := if y > y' then y' else y, if y > y' then y else y';
      Rect(x, y, x', y')
    case Poly(pts) =>
      Poly(seq(|pts|, i requires 0 <= i < |pts| => Point(pts[i].x + dx, pts[i].y + dy)))
  }

  /** Shifting back undoes a shift, for every shape already in corner order. */
  lemma TranslateInverse(s: Shape, dx: int, dy: int)
    requires Normal(s)
    ensures Translate(Translate(s, dx, dy), -dx, -dy) == s
  {
  }

  /** Two shifts make one. */
  lemma TranslateCompose(s: Shape, a: int, b: int, c: int, d: int)
    ensures Translate(Translate(s, a, b), c, d) == Translate(s, a + c, b + d)
  {
  }

  /** `reflect_cords` (source lines 47-56): negate y about the x axis when `xaxis`, negate x
      about the y axis when `yaxis`. */
  function Reflect(pts: seq<Point>, xaxis: bool, yaxis: bool): (r: seq<Point>)
    ensures |r| == |pts|
    ensures forall i :: 0 <= i < |pts| ==>
              r[i] == Point(if yaxis then -pts[i].x else pts[i].x, if xaxis then -pts[i].y else pts[i].y)
  {
    seq(|pts|, i requires 0 <= i < |pts| =>
      Point(if yaxis then -pts[i].x else pts[i].x, if xaxis then -pts[i].y else pts[i].y))
  }

  /** With its default arguments the reflection mirrors left to right: x negated, y kept. */
  lemma ReflectDefault(pts: seq<Point>)
    ensures forall i :: 0 <= i < |pts| ==> Reflect(pts, false, true)[i] == Point(-pts[i].x, pts[i].y)
  {
  }

  /** Reflecting twice about the same axes gives the vertices back. */
  lemma ReflectTwice(pts: seq<Point>, xaxis: bool, yaxis: bool)
    ensures Reflect(Reflect(pts, xaxis, yaxis), xaxis, yaxis) == pts
  {
  }

  // ---------------------------------------------------------------------------------------
  // The net of `create_box_layout_shapes` (source lines 61-149)
  // ---------------------------------------------------------------------------------------

  /** Box width, depth and height in pixels, and the two insert-tab measures the source takes
      as 15% of the depth and 25% of the height. */
  datatype Box = Box(w: int, d: int, h: int, insertOffset: int, insertExtension: int)

  /** The box measures are not negative. */
  predicate Valid(b: Box) {
    b.w >= 0 && b.d >= 0 && b.h >= 0
  }

  function TabOffset(b: Box): int {
    b.h / 4
  }

  function NameLid(b: Box): Shape {
    Rect(0, 0, b.w, b.h)
  }

  function SidePanel(b: Box): Shape {
    Rect(0, 0, b.d, b.h)
  }

  function RightSide(b: Box): Shape {
    Translate(SidePanel(b), b.w, 0)
  }

  function RightSideLayer2(b: Box): Shape {
    Translate(SidePanel(b), b.w + b.d, 0)
  }

  function TabRight(b: Box): Shape {
    var t := TabOffset(b);
    Translate(Poly([Point(0, 0), Point(t, t), Point(t, b.h - t), Point(0, b.h)]), b.w + b.d + b.d, 0)
  }

  function LeftSide(b: Box): Shape {
    Translate(SidePanel(b), -b.d, 0)
  }

  function LeftSideLayer2(b: Box): Shape {
    Translate(SidePanel(b), -b.d - b.d, 0)
  }

  function TabLeft(b: Box): Shape {
    var t := TabOffset(b);
    Poly([Point(-b.d - b.d, 0), Point(-b.d - b.d - t, t), Point(-b.d - b.d - t, b.h - t), Point(-b.d - b.d, b.h)])
  }

  function BottomSide(b: Box): Shape {
    Rect(0, b.h, b.w, b.h + b.d)
  }

  function BottomSideLayer2(b: Box): Shape {
    Translate(BottomSide(b), 0, b.d)
  }

  function TabBottom(b: Box): Shape {
    var t := TabOffset(b);
    Translate(Poly([Point(0, 0), Point(t, t), Point(b.w - t, t), Point(b.w, 0)]), 0, b.h + b.d + b.d)
  }

  /** The insert tab, with its base on x = 0 from y = 0 to y = d; the source lists its third
      vertex twice. */
  function InsertTab(b: Box): Shape {
    var o, e := b.insertOffset, b.insertExtension;
    Poly([Point(0, 0), Point(o, o), Point(o + e, o), Point(o + e, o), Point(o + e, b.d - o), Point(o, b.d - o), Point(0, b.d)])
  }

  function TabBottomRight(b: Box): Shape {
    Translate(InsertTab(b), b.w, b.h + b.d)
  }

  function TopSide(b: Box): Shape {
    Translate(BottomSide(b), 0, -b.d - b.h)
  }

  function TopSideLayer2(b: Box): Shape {
    Translate(BottomSide(b), 0, -b.h - b.d - b.d)
  }

  function TabTop(b: Box): Shape {
    var t := TabOffset(b);
    Poly([Point(0, -b.d - b.d), Point(t, -b.d - b.d - t), Point(b.w - t, -b.d - b.d - t), Point(b.w, -b.d - b.d)])
  }

  function TabTopRight(b: Box): Shape {
    Translate(TabBottomRight(b), 0, -b.h - b.d - b.d - b.d)
  }

  function TabBottomLeft(b: Box): Shape {
    Translate(Poly(Reflect(TabBottomRight(b).points, false, true)), b.w, 0)
  }

  function TabTopLeft(b: Box): Shape {
    Translate(Poly(Reflect(TabTopRight(b).points, false, true)), b.w, 0)
  }

  /** The shape list in the order the source lists it: the lid, then each side with its
      layer-2 panel and glue tab, then the four corner tabs. The lid and the side panels are
      rectangles, and every tab is a polygon. */
  function BoxShapes(b: Box): (shapes: seq<Named>)
    ensures |shapes| == 17
    ensures forall i :: 0 <= i < |shapes| ==> (shapes[i].shape.Rect? <==> i == 0 || (i < 13 && i % 3 != 0))
  {
    [ Named("name_lid", NameLid(b)),
      Named("bottom_side", BottomSide(b)),
      Named("bottom_side_layer_2", BottomSideLayer2(b)),
      Named("attatch_tab_bottom", TabBottom(b)),
      Named("top_side", TopSide(b)),
      Named("top_side_layer_2", TopSideLayer2(b)),
      Named("attatch_tab_top", TabTop(b)),
      Named("left_side", LeftSide(b)),
      Named("left_side_layer_2", LeftSideLayer2(b)),
      Named("attatch_tab_left", TabLeft(b)),
      Named("right_side", RightSide(b)),
      Named("right_side_layer_2", RightSideLayer2(b)),
      Named("attatch_tab_right", TabRight(b)),
      Named("attatch_tab_bottom_right", TabBottomRight(b)),
      Named("attatch_tab_top_right", TabTopRight(b)),
      Named("attatch_tab_bottom_left", TabBottomLeft(b)),
      Named("attatch_tab_top_left", TabTopLeft(b)) ]
  }

  /** No two shapes of the net share a name, so a name identifies one shape. */
  lemma BoxShapeNamesDistinct(b: Box)
    ensures forall i, j :: 0 <= i < j < |BoxShapes(b)| ==> BoxShapes(b)[i].name != BoxShapes(b)[j].name
  {
  }

  function First(s: Shape): Point
    requires s.Poly? && |s.points| > 0
  {
    s.points[0]
  }

  function Last(s: Shape): Point
    requires s.Poly? && |s.points| > 0
  {
    s.points[|s.points| - 1]
  }

  /** The panels meet where a fold runs: the sides and the top and bottom panels share the
      lid's edges, and every glue tab has its base exactly on the outer edge of the layer-2
      panel it hangs from. */
  lemma SharedEdges(b: Box)
    requires Valid(b)
    ensures RightSide(b).x1 == NameLid(b).x2 && LeftSide(b).x2 == NameLid(b).x1
    ensures TopSide(b).y2 == NameLid(b).y1 && BottomSide(b).y1 == NameLid(b).y2
    ensures RightSideLayer2(b).x1 == RightSide(b).x2 && LeftSideLayer2(b).x2 == LeftSide(b).x1
    ensures BottomSideLayer2(b).y1 == BottomSide(b).y2 && TopSideLayer2(b).y2 == TopSide(b).y1
    ensures First(TabRight(b)).x == Last(TabRight(b)).x == RightSideLayer2(b).x2
    ensures First(TabLeft(b)).x == Last(TabLeft(b)).x == LeftSideLayer2(b).x1
    ensures First(TabBottom(b)).y == Last(TabBottom(b)).y == BottomSideLayer2(b).y2
    ensures First(TabTop(b)).y == Last(TabTop(b)).y == TopSideLayer2(b).y1
    ensures First(TabBottomRight(b)) == Point(BottomSideLayer2(b).x2, BottomSideLayer2(b).y1)
    ensures Last(TabBottomRight(b)) == Point(BottomSideLayer2(b).x2, BottomSideLayer2(b).y2)
    ensures First(TabTopRight(b)) == Point(TopSideLayer2(b).x2, TopSideLayer2(b).y1)
    ensures Last(TabTopRight(b)) == Point(TopSideLayer2(b).x2, TopSideLayer2(b).y2)
    ensures First(TabBottomLeft(b)) == Point(BottomSideLayer2(b).x1, BottomSideLayer2(b).y1)
    ensures Last(TabBottomLeft(b)) == Point(BottomSideLayer2(b).x1, BottomSideLayer2(b).y2)
    ensures First(TabTopLeft(b)) == Point(TopSideLayer2(b).x1, TopSideLayer2(b).y1)
    ensures Last(TabTopLeft(b)) == Point(TopSideLayer2(b).x1, TopSideLayer2(b).y2)
  {
  }

  // ---------------------------------------------------------------------------------------
  // The lowest coordinate (`find_lowest_cord`, source lines 222-234)
  // ---------------------------------------------------------------------------------------

  function PointXs(pts: seq<Point>): set<int> {
    set i | 0 <= i < |pts| :: pts[i].x
  }

  function PointYs(pts: seq<Point>): set<int> {
    set i | 0 <= i < |pts| :: pts[i].y
  }

  /** The x values `find_lowest_cord` looks at: both stored x's of a rectangle, every vertex x
      of a polygon. */
  function ShapeXs(s: Shape): set<int> {
    match s
    case Rect(x1, _, x2, _) => {x1, x2}
    case Poly(pts) => PointXs(pts)
  }

  function ShapeYs(s: Shape): set<int> {
    match s
    case Rect(_, y1, _, y2) => {y1, y2}
    case Poly(pts) => PointYs(pts)
  }

  function Xs(shapes: seq<Shape>): set<int>
    decreases |shapes|
  {
    if shapes == [] then {} else Xs(shapes[..|shapes| - 1]) + ShapeXs(shapes[|shapes| - 1])
  }

  function Ys(shapes: seq<Shape>): set<int>
    decreases |shapes|
  {
    if shapes == [] then {} else Ys(shapes[..|shapes| - 1]) + ShapeYs(shapes[|shapes| - 1])
  }

  /** `v` is the least element of `s`. */
  predicate IsLeast(s: set<int>, v: int) {
    v in s && forall u :: u in s ==> v <= u
  }

  lemma LeastUnique(s: set<int>, a: int, b: int)
    requires IsLeast(s, a) && IsLeast(s, b)
    ensures a == b
  {
  }

  /** The running minimum of two optional corners; `None` plays the source's infinity. */
  function Lower(a: Option<Point>, b: Option<Point>): Option<Point> {
    match (a, b)
    case (None, _) => b
    case (_, None) => a
    case (Some(p), Some(q)) => Some(Point(Min(p.x, q.x), Min(p.y, q.y)))
  }

  function LowestPoint(pts: seq<Point>): (r: Option<Point>)
    ensures r.None? <==> pts == []
    ensures r.Some? ==> IsLeast(PointXs(pts), r.value.x) && IsLeast(PointYs(pts), r.value.y)
    decreases |pts|
  {
    if pts == [] then None
    else
      var r := Lower(LowestPoint(pts[..|pts| - 1]), Some(pts[|pts| - 1]));
      assert PointXs(pts) == PointXs(pts[..|pts| - 1]) + {pts[|pts| - 1].x};
      assert PointYs(pts) == PointYs(pts[..|pts| - 1]) + {pts[|pts| - 1].y};
      r
  }

  function ShapeLowest(s: Shape): (r: Option<Point>)
    ensures r.None? <==> ShapeXs(s) == {}
    ensures r.Some? ==> IsLeast(ShapeXs(s), r.value.x) && IsLeast(ShapeYs(s), r.value.y)
  {
    match s
    case Rect(x1, y1, x2, y2) => Some(Point(Min(x1, x2), Min(y1, y2)))
    case Poly(pts) =>
      if pts == [] then None
      else
        assert pts[0].x in PointXs(pts);
        LowestPoint(pts)
  }

  /** `find_lowest_cord`: the least x and the least y over every coordinate of every shape, or
      `None` (the source's infinity) when there is no coordinate at all. */
  function LowestCord(shapes: seq<Shape>): (r: Option<Point>)
    ensures r.None? <==> Xs(shapes) == {}
    ensures r.None? <==> Ys(shapes) == {}
    ensures r.Some? ==> IsLeast(Xs(shapes), r.value.x) && IsLeast(Ys(shapes), r.value.y)
    decreases |shapes|
  {
    if shapes == [] then None
    else
      var s := shapes[|shapes| - 1];
      assert ShapeXs(s) == {} <==> ShapeYs(s) == {} by {
        if s.Poly? && s.points != [] {
          assert s.points[0].x in ShapeXs(s) && s.points[0].y in ShapeYs(s);
        }
      }
      Lower(LowestCord(shapes[..|shapes| - 1]), ShapeLowest(s))
  }

  // ---------------------------------------------------------------------------------------
  // Translating whole shape lists
  // ---------------------------------------------------------------------------------------

  function Shift(s: set<int>, d: int): set<int> {
    set u | u in s :: u + d
  }

  function ShapesOf(ns: seq<Named>): (shapes: seq<Shape>)
    ensures |shapes| == |ns| && forall i :: 0 <= i < |ns| ==> shapes[i] == ns[i].shape
  {
    seq(|ns|, i requires 0 <= i < |ns| => ns[i].shape)
  }

  /** Every shape of the list shifted by (`dx`, `dy`), names kept. */
  function TranslateAll(ns: seq<Named>, dx: int, dy: int): (r: seq<Named>)
    ensures |r| == |ns|
    ensures forall i :: 0 <= i < |ns| ==> r[i] == Named(ns[i].name, Translate(ns[i].shape, dx, dy))
  {
    seq(|ns|, i requires 0 <= i < |ns| => Named(ns[i].name, Translate(ns[i].shape, dx, dy)))
  }

  lemma ShapeShift(s: Shape, dx: int, dy: int)
    ensures ShapeXs(Translate(s, dx, dy)) == Shift(ShapeXs(s), dx)
    ensures ShapeYs(Translate(s, dx, dy)) == Shift(ShapeYs(s), dy)
  {
    var r := Translate(s, dx, dy);
    if s.Poly? {
      PointsShift(s.points, r.points, dx, dy);
    } else {
      assert Shift({s.x1, s.x2}, dx) == {s.x1 + dx, s.x2 + dx};
      assert Shift({s.y1, s.y2}, dy) == {s.y1 + dy, s.y2 + dy};
    }
  }

  lemma PointsShift(pts: seq<Point>, moved: seq<Point>, dx: int, dy: int)
    requires |moved| == |pts|
    requires forall i :: 0 <= i < |pts| ==> moved[i] == Point(pts[i].x + dx, pts[i].y + dy)
    ensures PointXs(moved) == Shift(PointXs(pts), dx)
    ensures PointYs(moved) == Shift(PointYs(pts), dy)
  {
    forall u | u in Shift(PointXs(pts), dx)
      ensures u in PointXs(moved)
    {
      var v :| v in PointXs(pts) && u == v + dx;
      var i :| 0 <= i < |pts| && pts[i].x == v;
      assert moved[i].x == u;
    }
    forall u | u in PointXs(moved)
      ensures u in Shift(PointXs(pts), dx)
    {
      var i :| 0 <= i < |moved| && moved[i].x == u;
      assert pts[i].x in PointXs(pts);
    }
    forall u | u in Shift(PointYs(pts), dy)
      ensures u in PointYs(moved)
    {
      var v :| v in PointYs(pts) && u == v + dy;
      var i :| 0 <= i < |pts| && pts[i].y == v;
      assert moved[i].y == u;
    }
    forall u | u in PointYs(moved)
      ensures u in Shift(PointYs(pts), dy)
    {
      var i :| 0 <= i < |moved| && moved[i].y == u;
      assert pts[i].y in PointYs(pts);
    }
  }

  lemma {:induction false} ShiftAll(ns: seq<Named>, dx: int, dy: int)
    ensures Xs(ShapesOf(TranslateAll(ns, dx, dy))) == Shift(Xs(ShapesOf(ns)), dx)
    ensures Ys(ShapesOf(TranslateAll(ns, dx, dy))) == Shift(Ys(ShapesOf(ns)), dy)
    decreases |ns|
  {
    if ns != [] {
      var n := |ns| - 1;
      ShiftAll(ns[..n], dx, dy);
      ShapeShift(ns[n].shape, dx, dy);
      assert ShapesOf(ns)[..n] == ShapesOf(ns[..n]);
      assert ShapesOf(TranslateAll(ns, dx, dy))[..n] == ShapesOf(TranslateAll(ns[..n], dx, dy));
    }
  }

  lemma LeastShift(s: set<int>, v: int, d: int)
    requires IsLeast(s, v)
    ensures IsLeast(Shift(s, d), v + d)
  {
  }

  /** Shifting every shape shifts the least coordinates with it. */
  lemma LeastTranslate(ns: seq<Named>, dx: int, dy: int, low: Point)
    requires IsLeast(Xs(ShapesOf(ns)), low.x) && IsLeast(Ys(ShapesOf(ns)), low.y)
    ensures IsLeast(Xs(ShapesOf(TranslateAll(ns, dx, dy))), low.x + dx)
    ensures IsLeast(Ys(ShapesOf(TranslateAll(ns, dx, dy))), low.y + dy)
  {
    ShiftAll(ns, dx, dy);
    LeastShift(Xs(ShapesOf(ns)), low.x, dx);
    LeastShift(Ys(ShapesOf(ns)), low.y, dy);
  }

  /** Source lines 261-264: shift the whole net so that its lowest coordinate is the origin. */
  function Normalize(ns: seq<Named>): seq<Named> {
    match LowestCord(ShapesOf(ns))
    case None => ns
    case Some(p) => TranslateAll(ns, -p.x, -p.y)
  }

  /** After normalisation the least x and the least y are both 0, so no coordinate is negative. */
  lemma NormalizeLowest(ns: seq<Named>)
    requires Xs(ShapesOf(ns)) != {}
    ensures IsLeast(Xs(ShapesOf(Normalize(ns))), 0) && IsLeast(Ys(ShapesOf(Normalize(ns))), 0)
  {
    var p := LowestCord(ShapesOf(ns)).value;
    var shifted := ShapesOf(TranslateAll(ns, -p.x, -p.y));
    assert ShapesOf(Normalize(ns)) == shifted;
    assert IsLeast(Xs(shifted), 0) && IsLeast(Ys(shifted), 0) by {
      LeastTranslate(ns, -p.x, -p.y, p);
    }
  }

  // ---------------------------------------------------------------------------------------
  // Tiling (`shapes_split_into_sheets`, source lines 161-193, and lines 265-276)
  // ---------------------------------------------------------------------------------------

  /** A page-sized tile of the plane: column and row. */
  datatype Tile = Tile(col: int, row: int)

  /** The tile holding a point: Python's `//` with a positive divisor rounds down, as Dafny's
      `/` does. */
  function TileOf(p: Point): (t: Tile)
    ensures t.col * PrintableWidth <= p.x < (t.col + 1) * PrintableWidth
    ensures t.row * PrintableHeight <= p.y < (t.row + 1) * PrintableHeight
  {
    Tile(p.x / PrintableWidth, p.y / PrintableHeight)
  }

  /** The tiles a shape is filed under: those of a rectangle's two stored corners only, those of
      every vertex of a polygon; as a set, so never twice. */
  function ShapeTiles(s: Shape): set<Tile> {
    match s
    case Rect(x1, y1, x2, y2) => {TileOf(Point(x1, y1)), TileOf(Point(x2, y2))}
    case Poly(pts) => set i | 0 <= i < |pts| :: TileOf(pts[i])
  }

  /** File `n` under each of its tiles, after what is already there. */
  function FileShape(grid: map<Tile, seq<Named>>, n: Named): map<Tile, seq<Named>> {
    var tiles := ShapeTiles(n.shape);
    map t | t in grid.Keys + tiles :: if t in tiles then (if t in grid then grid[t] else []) + [n] else grid[t]
  }

  /** The dictionary `sheet_grid`, filled shape by shape in list order. */
  function Grid(ns: seq<Named>): map<Tile, seq<Named>>
    decreases |ns|
  {
    if ns == [] then map[] else FileShape(Grid(ns[..|ns| - 1]), ns[|ns| - 1])
  }

  /** The reference meaning of a tile's list: the shapes touching it, each once, in list order. */
  function OnTile(ns: seq<Named>, t: Tile): seq<Named>
    decreases |ns|
  {
    if ns == [] then []
    else OnTile(ns[..|ns| - 1], t) + (if t in ShapeTiles(ns[|ns| - 1].shape) then [ns[|ns| - 1]] else [])
  }

  /** The grid holds exactly the tiles some shape touches, and under each of them exactly the
      shapes touching it, in their original order, none twice. */
  lemma {:induction false} GridOnTile(ns: seq<Named>, t: Tile)
    ensures t in Grid(ns) <==> OnTile(ns, t) != []
    ensures t in Grid(ns) ==> Grid(ns)[t] == OnTile(ns, t)
    decreases |ns|
  {
    if ns != [] {
      GridOnTile(ns[..|ns| - 1], t);
    }
  }

  /** Source lines 270-276: shift a tile's shapes so that their lowest coordinate sits at the
      page margin. */
  function PlaceTile(ns: seq<Named>): seq<Named> {
    TranslateAll(Normalize(ns), Margin, Margin)
  }

  /** On every page the drawing starts at the margin: the least x and the least y are both 70. */
  lemma PlaceTileLowest(ns: seq<Named>)
    requires Xs(ShapesOf(ns)) != {}
    ensures IsLeast(Xs(ShapesOf(PlaceTile(ns))), Margin) && IsLeast(Ys(ShapesOf(PlaceTile(ns))), Margin)
  {
    NormalizeLowest(ns);
    LeastTranslate(Normalize(ns), Margin, Margin, Point(0, 0));
  }

  /** `split_to_multiple_sheets_save` without the drawing: the net normalised, filed by tile,
      and each tile's shapes moved to the page margin. */
  function SplitSheets(ns: seq<Named>): (pages: map<Tile, seq<Named>>)
    ensures forall t :: (t in pages <==> OnTile(Normalize(ns), t) != [])
                        && (t in pages ==> pages[t] == PlaceTile(OnTile(Normalize(ns), t)))
  {
    var grid := Grid(Normalize(ns));
    assert forall t :: (t in grid <==> OnTile(Normalize(ns), t) != []) &&
                       (t in grid ==> grid[t] == OnTile(Normalize(ns), t)) by {
      forall t
        ensures (t in grid <==> OnTile(Normalize(ns), t) != []) &&
                (t in grid ==> grid[t] == OnTile(Normalize(ns), t))
      {
        GridOnTile(Normalize(ns), t);
      }
    }
    map t | t in grid :: PlaceTile(grid[t])
  }
}

=== FILE: characters.dfy ===
/** One character record of a script JSON file, as the token generator and the reminder-count
    updater read it. A key that is absent from the JSON object is `None`. */
module Characters {
  import opened Wrappers

  /** An element of a `reminders` list: a plain reminder text as the scripts ship it, or a
      `{"text": ..., "count": ...}` object as the reminder-count updater writes it. */
  datatype ReminderEntry = Text(text: string) | Tally(text: string, count: int)

  datatype Character = Character(
    id: Option<string>,
    name: Option<string>,
    ability: Option<string>,
    team: Option<string>,
    firstNight: Option<int>,
    otherNight: Option<int>,
    reminders: Option<seq<ReminderEntry>>)

  /** Every entry of the list is a plain text. */
  predicate AllTexts(rs: seq<ReminderEntry>) {
    forall k :: 0 <= k < |rs| ==> rs[k].Text?
  }

  /** The texts of a list of entries, in order. */
  function TextsOf(rs: seq<ReminderEntry>): (ts: seq<string>)
    ensures |ts| == |rs| && forall k :: 0 <= k < |rs| ==> ts[k] == rs[k].text
  {
    seq(|rs|, k requires 0 <= k < |rs| => rs[k].text)
  }

  /** `character_data.get(key, "")` for a text-valued key. */
  function OrEmpty(v: Option<string>): string {
    v.GetOr("")
  }
}

=== FILE: in_order_packer.dfy ===
/** The print-sheet packer of the top-level create_print_sheets.py: every character token, then
    every reminder token, pasted edge to edge in list order, starting a new row when a token does
    not fit the row and a new sheet when it does not fit the page. */
module InOrderPacker {
  import opened Sheets

  /** The configuration the script runs with: 11 x 8.5 inch paper at 600 DPI with 0.7 inch
      margins, 1.75 and 1 inch tokens and no gap between them, truncated to whole pixels. */
  function SourceConfig(): Config {
    Config(Geometry(420, 5760, 4260), 1050, 600, 0)
  }

  lemma SourceConfigFits()
    ensures SizesFit(SourceConfig())
  {
  }

  /** The list the script builds before packing (source lines 60-64): the character tokens at
      the character diameter followed by the reminder tokens at the reminder diameter. */
  function Items<P>(cfg: Config, characters: seq<P>, reminders: seq<P>): (items: seq<Token<P>>)
    ensures |items| == |characters| + |reminders|
    ensures forall i :: 0 <= i < |characters| ==> items[i] == Token(Character, characters[i], cfg.characterSize)
    ensures forall i :: 0 <= i < |reminders| ==>
              items[|characters| + i] == Token(Reminder, reminders[i], cfg.reminderSize)
  {
    seq(|characters|, i requires 0 <= i < |characters| => Token(Character, characters[i], cfg.characterSize))
    + seq(|reminders|, i requires 0 <= i < |reminders| => Token(Reminder, reminders[i], cfg.reminderSize))
  }

  lemma TokensOfSnoc<P>(ps: seq<Placement<P>>, p: Placement<P>)
    ensures TokensOf(ps + [p]) == TokensOf(ps) + [p.token]
  {
  }

  /** One turn of the loop (source lines 80-107): wrap when `t` does not fit the row, save the
      sheet and start a fresh one when it does not fit the page, then paste it. */
  method Step<P>(cfg: Config, c0: Cursor<P>, closed0: seq<seq<Placement<P>>>, t: Token<P>)
    returns (c: Cursor<P>, closed: seq<seq<Placement<P>>>)
    requires SizesFit(cfg) && (t.size == cfg.characterSize || t.size == cfg.reminderSize)
    requires CursorInv(cfg.geometry, c0, cfg.padding) && SavedWellPacked(cfg, closed0)
    ensures CursorInv(cfg.geometry, c, cfg.padding) && SavedWellPacked(cfg, closed)
    ensures c.sheet != [] && c.sheet[|c.sheet| - 1].token == t
    ensures Flatten(closed) + c.sheet == Flatten(closed0) + c0.sheet + [c.sheet[|c.sheet| - 1]]
    ensures var w := RowFor(cfg.geometry, c0, t.size);
            && (w.y + t.size <= Bottom(cfg.geometry) ==> closed == closed0 && c == Paste(w, t, cfg.padding))
            && (w.y + t.size > Bottom(cfg.geometry) ==>
                  closed == closed0 + [c0.sheet] && c == Paste(Fresh(cfg.geometry), t, cfg.padding))
  {
    var g := cfg.geometry;
    c, closed := c0, closed0;
    if c.x + t.size > Right(g) {
      c := NewRow(g, c, cfg.padding);
    }
    assert c == RowFor(g, c0, t.size);
    if c.y + t.size > Bottom(g) {
      SavedSheet(cfg, closed, c.sheet);
      FlattenSnoc(closed, c.sheet);
      closed := closed + [c.sheet];
      c := Fresh(g);
    }
    var before := c.sheet;
    c := Place(g, c, t, cfg.padding);
    assert Flatten(closed) + c.sheet == (Flatten(closed) + before) + [c.sheet[|c.sheet| - 1]];
  }

  /** The packing loop of `main` (source lines 76-113). The sheets come out non-empty, inside
      the printable area and padded apart (hence free of overlap, by `SheetsNoOverlap`), and
      reading them in order gives back the token list; no token means no sheet. */
  method PackInOrder<P>(cfg: Config, characters: seq<P>, reminders: seq<P>) returns (sheets: seq<seq<Placement<P>>>)
    requires SizesFit(cfg)
    ensures SavedWellPacked(cfg, sheets)
    ensures TokensOf(Flatten(sheets)) == Items(cfg, characters, reminders)
    ensures characters == [] && reminders == [] <==> sheets == []
  {
    var items := Items(cfg, characters, reminders);
    var c: Cursor<P> := Fresh(cfg.geometry);
    var closed: seq<seq<Placement<P>>> := [];
    for i := 0 to |items|
      invariant CursorInv(cfg.geometry, c, cfg.padding)
      invariant SavedWellPacked(cfg, closed)
      invariant TokensOf(Flatten(closed) + c.sheet) == items[..i]
    {
      var before := Flatten(closed) + c.sheet;
      c, closed := Step(cfg, c, closed, items[i]);
      TokensOfSnoc(before, c.sheet[|c.sheet| - 1]);
      assert items[..i + 1] == items[..i] + [items[i]];
    }
    assert items[..|items|] == items;
    sheets := SaveLast(cfg, c, closed);
    FlattenNonEmpty(cfg, sheets);
  }

  /** The last sheet is saved only when something was pasted on it (source lines 110-113). */
  method SaveLast<P>(cfg: Config, c: Cursor<P>, closed: seq<seq<Placement<P>>>) returns (sheets: seq<seq<Placement<P>>>)
    requires CursorInv(cfg.geometry, c, cfg.padding) && SavedWellPacked(cfg, closed)
    ensures |sheets| == |closed| + (if c.sheet == [] then 0 else 1)
    ensures Flatten(sheets) == Flatten(closed) + c.sheet
    ensures SavedWellPacked(cfg, sheets)
  {
    if c.sheet != [] {
      SavedSheet(cfg, closed, c.sheet);
      FlattenSnoc(closed, c.sheet);
      sheets := closed + [c.sheet];
    } else {
      assert Flatten(closed) + c.sheet == Flatten(closed);
      sheets := closed;
    }
  }
}

=== FILE: priority_packer.dfy ===
/** The print-sheet packer of src/create_print_sheets.py. Character tokens are taken whenever
    one fits the current row, reminder tokens fill in when none does, a token that falls off
    the page bottom is deferred to the next sheet, and before each sheet is closed the space
    left on it is backfilled with reminder tokens. */
module PriorityPacker {
  import opened Wrappers
  import opened Sheets

  /** The configuration the script runs with: 11 x 8.5 inch paper at 300 DPI with 0.75 inch
      margins, 1.75 and 1 inch tokens, and 1/16 inch padding, truncated to whole pixels. */
  function SourceConfig(): Config {
    Config(Geometry(225, 2850, 2100), 525, 300, 18)
  }

  lemma SourceConfigFits()
    ensures SizesFit(SourceConfig())
  {
  }

  /** The list the next token is popped from when nothing is pending: a character token
      whenever one remains and fits the rest of the row, a reminder token only when no
      character fits and a reminder does, and otherwise a character token (which wraps). */
  function Choose(cfg: Config, x: int, charactersLeft: bool, remindersLeft: bool): (k: Kind)
    requires charactersLeft || remindersLeft
    ensures k == Character ==> charactersLeft
    ensures k == Reminder ==> remindersLeft
    ensures charactersLeft && x + cfg.characterSize <= Right(cfg.geometry) ==> k == Character
    ensures k == Reminder && charactersLeft ==>
              x + cfg.characterSize > Right(cfg.geometry) && x + cfg.reminderSize <= Right(cfg.geometry)
  {
    var characterFits := charactersLeft && x + cfg.characterSize <= Right(cfg.geometry);
    var reminderFits := remindersLeft && x + cfg.reminderSize <= Right(cfg.geometry);
    if characterFits then Character
    else if reminderFits then Reminder
    else if charactersLeft then Character
    else Reminder
  }

  /** Every placement is a reminder token at the reminder diameter. */
  ghost predicate ReminderSized<P>(cfg: Config, ps: seq<Placement<P>>) {
    forall i :: 0 <= i < |ps| ==> ps[i].token.kind == Reminder && ps[i].token.size == cfg.reminderSize
  }

  /** The packer's variables: the cursor on the current sheet, what is left of the two token
      lists, the deferred token, and the sheets already saved. */
  datatype State<P> = State(
    cursor: Cursor<P>,
    characters: seq<P>,
    reminders: seq<P>,
    pending: Option<Token<P>>,
    closed: seq<seq<Placement<P>>>)

  /** Everything pasted so far, in paste order. */
  function Placed<P>(st: State<P>): seq<Placement<P>> {
    Flatten(st.closed) + st.cursor.sheet
  }

  function PendingPaths<P>(pending: Option<Token<P>>, k: Kind): seq<P> {
    if pending.Some? && pending.value.kind == k then [pending.value.path] else []
  }

  function Measure<P>(st: State<P>): nat {
    2 * |st.characters| + 2 * |st.reminders| + (if st.pending.Some? then 1 else 0)
  }

  /** `list` is what repeated `pop()` has left of `input`. */
  ghost predicate PoppedFrom<P>(list: seq<P>, input: seq<P>) {
    |list| <= |input| && list == input[..|list|]
  }

  /** What was pasted of class `k`, followed by the token in hand when it is of class `k`, is
      the popped suffix of `input` in pop order. */
  ghost predicate Tracks<P>(placed: seq<Placement<P>>, pending: Option<Token<P>>, k: Kind, list: seq<P>, input: seq<P>)
    requires PoppedFrom(list, input)
  {
    PathsOf(placed, k) + PendingPaths(pending, k) == Reverse(input[|list|..])
  }

  /** The bookkeeping of the packing loop: the cursor invariant, the saved sheets, both lists
      tracked against their inputs, and every paste and the token in hand at their class's
      diameter. */
  ghost predicate Accounted<P>(cfg: Config, st: State<P>, characters: seq<P>, reminders: seq<P>) {
    && CursorInv(cfg.geometry, st.cursor, cfg.padding)
    && SavedWellPacked(cfg, st.closed)
    && PoppedFrom(st.characters, characters)
    && PoppedFrom(st.reminders, reminders)
    && Tracks(Placed(st), st.pending, Character, st.characters, characters)
    && Tracks(Placed(st), st.pending, Reminder, st.reminders, reminders)
    && Sized(cfg, Placed(st))
    && (st.pending.Some? ==> st.pending.value.size == SizeOf(cfg, st.pending.value.kind))
  }

  /** The invariant at the head of the packing loop: a deferred token waits on a fresh sheet. */
  ghost predicate Inv<P>(cfg: Config, st: State<P>, characters: seq<P>, reminders: seq<P>) {
    && Accounted(cfg, st, characters, reminders)
    && (st.pending.Some? ==> st.cursor.sheet == [])
  }

  /** The promise of a complete packing: every sheet is non-empty, inside the printable area,
      separated by the padding and free of overlap; each class is pasted in reverse input
      order (so each token exactly once) at its class's diameter. */
  ghost predicate Packed<P>(cfg: Config, sheets: seq<seq<Placement<P>>>, characters: seq<P>, reminders: seq<P>) {
    && SavedWellPacked(cfg, sheets)
    && (forall i :: 0 <= i < |sheets| ==> NoOverlap(sheets[i]))
    && Sized(cfg, Flatten(sheets))
    && PathsOf(Flatten(sheets), Character) == Reverse(characters)
    && PathsOf(Flatten(sheets), Reminder) == Reverse(reminders)
    && |Flatten(sheets)| == |characters| + |reminders|
  }

  /** The state of the backfill loop: the sheet is the one it started from plus reminder
      tokens pasted by the shelf rule, popped one by one from the end of the list. */
  ghost predicate Backfilling<P>(cfg: Config, c0: Cursor<P>, reminders0: seq<P>, c: Cursor<P>, reminders: seq<P>, added: seq<Placement<P>>) {
    && CursorInv(cfg.geometry, c, cfg.padding) && c.sheet == c0.sheet + added
    && PoppedFrom(reminders, reminders0)
    && ReminderSized(cfg, added)
    && PathsOf(added, Reminder) == Reverse(reminders0[|reminders|..])
    && c == ShelveAll(cfg.geometry, c0, TokensOf(added), cfg.padding)
  }

  /** Fill what is left of the sheet with reminder tokens before it is saved: wrap when a
      reminder no longer fits the row, stop when it no longer fits the page or none remain. */
  method Backfill<P>(cfg: Config, c0: Cursor<P>, reminders0: seq<P>) returns (c: Cursor<P>, reminders: seq<P>, added: seq<Placement<P>>)
    requires CursorInv(cfg.geometry, c0, cfg.padding)
    requires cfg.reminderSize <= cfg.geometry.printableWidth
    ensures CursorInv(cfg.geometry, c, cfg.padding) && c.sheet == c0.sheet + added
    ensures PoppedFrom(reminders, reminders0)
    ensures ReminderSized(cfg, added)
    ensures PathsOf(added, Reminder) == Reverse(reminders0[|reminders|..])
    ensures var shelved := ShelveAll(cfg.geometry, c0, TokensOf(added), cfg.padding);
            c == if reminders == [] then shelved else RowFor(cfg.geometry, shelved, cfg.reminderSize)
    ensures reminders == [] || c.y + cfg.reminderSize > Bottom(cfg.geometry)
    ensures c0.x + cfg.reminderSize <= Right(cfg.geometry) && c0.y + cfg.reminderSize > Bottom(cfg.geometry) ==>
              reminders == reminders0 && added == []
  {
    var g := cfg.geometry;
    var rs := cfg.reminderSize;
    c := c0;
    reminders := reminders0;
    added := [];
    assert reminders0[|reminders0|..] == [];
    while reminders != []
      invariant Backfilling(cfg, c0, reminders0, c, reminders, added)
      invariant c0.x + rs <= Right(g) && c0.y + rs > Bottom(g) ==> reminders == reminders0 && added == []
      decreases |reminders|
    {
      var stop, c', reminders', added' := BackfillTurn(cfg, c0, reminders0, c, reminders, added);
      if stop {
        c := c';
        break;
      }
      c, reminders, added := c', reminders', added';
    }
  }

  /** One turn of the backfill loop (source lines 122-142): the row check, then a stop when a
      reminder does not fit below the cursor, otherwise the last remaining reminder pasted. */
  method BackfillTurn<P>(cfg: Config, c0: Cursor<P>, reminders0: seq<P>, c: Cursor<P>, reminders: seq<P>, added: seq<Placement<P>>)
    returns (stop: bool, c': Cursor<P>, reminders': seq<P>, added': seq<Placement<P>>)
    requires Backfilling(cfg, c0, reminders0, c, reminders, added) && reminders != []
    requires cfg.reminderSize <= cfg.geometry.printableWidth
    ensures stop <==> RowFor(cfg.geometry, c, cfg.reminderSize).y + cfg.reminderSize > Bottom(cfg.geometry)
    ensures stop ==> c' == RowFor(cfg.geometry, c, cfg.reminderSize) && CursorInv(cfg.geometry, c', cfg.padding)
    ensures !stop ==> Backfilling(cfg, c0, reminders0, c', reminders', added') && |reminders'| < |reminders|
  {
    var g := cfg.geometry;
    var rs := cfg.reminderSize;
    c' := c;
    if c'.x + rs > Right(g) {
      c' := NewRow(g, c', cfg.padding);
    }
    assert c' == RowFor(g, c, rs);
    if c'.y + rs > Bottom(g) {
      return true, c', reminders, added;
    }
    var n := |reminders|;
    var p := Placement(Token(Reminder, reminders[n - 1], rs), c'.x, c'.y);
    BackfillPasted(cfg, c0, c, c', added, p, reminders0, n);
    c' := Place(g, c', p.token, cfg.padding);
    added' := added + [p];
    reminders' := reminders[..n - 1];
    stop := false;
  }

  /** Pasting the next reminder, popped from `reminders0[..n]`, at the cursor after the row
      check extends both the shelf and the reversed suffix of popped reminders by it. */
  lemma BackfillPasted<P>(cfg: Config, c0: Cursor<P>, shelved: Cursor<P>, c: Cursor<P>, added: seq<Placement<P>>,
                          p: Placement<P>, reminders0: seq<P>, n: nat)
    requires 0 < n <= |reminders0|
    requires shelved == ShelveAll(cfg.geometry, c0, TokensOf(added), cfg.padding)
    requires c == RowFor(cfg.geometry, shelved, cfg.reminderSize)
    requires p == Placement(Token(Reminder, reminders0[n - 1], cfg.reminderSize), c.x, c.y)
    requires PathsOf(added, Reminder) == Reverse(reminders0[n..])
    ensures Paste(c, p.token, cfg.padding) == ShelveAll(cfg.geometry, c0, TokensOf(added + [p]), cfg.padding)
    ensures PathsOf(added + [p], Reminder) == Reverse(reminders0[n - 1..])
  {
    PathsOfSnoc(added, p, Reminder);
    ReversePop(reminders0, n);
    ShelveAllSnoc(cfg.geometry, c0, TokensOf(added), p.token, cfg.padding);
    assert TokensOf(added + [p]) == TokensOf(added) + [p.token];
  }

  /** The first half of a loop iteration (source lines 86-106): the deferred token if there is
      one, otherwise the last token of the list `Choose` picks. */
  method Take<P>(cfg: Config, st: State<P>, ghost characters: seq<P>, ghost reminders: seq<P>) returns (hand: State<P>)
    requires Inv(cfg, st, characters, reminders)
    requires st.characters != [] || st.reminders != [] || st.pending.Some?
    ensures Accounted(cfg, hand, characters, reminders) && hand.pending.Some?
    ensures hand.cursor == st.cursor && hand.closed == st.closed
    ensures st.pending.Some? ==> hand == st
    ensures st.pending.None? ==> hand.pending.value.kind == Choose(cfg, st.cursor.x, st.characters != [], st.reminders != [])
    ensures st.pending.None? && hand.pending.value.kind == Character ==>
              && hand.pending.value == Token(Character, st.characters[|st.characters| - 1], cfg.characterSize)
              && hand.characters == st.characters[..|st.characters| - 1] && hand.reminders == st.reminders
    ensures st.pending.None? && hand.pending.value.kind == Reminder ==>
              && hand.pending.value == Token(Reminder, st.reminders[|st.reminders| - 1], cfg.reminderSize)
              && hand.reminders == st.reminders[..|st.reminders| - 1] && hand.characters == st.characters
    ensures Measure(hand) <= Measure(st)
    ensures st.pending.None? ==> Measure(hand) < Measure(st)
  {
    if st.pending.Some? {
      return st;
    }
    var chars := st.characters;
    var rems := st.reminders;
    var k := Choose(cfg, st.cursor.x, chars != [], rems != []);
    if k == Character {
      var token := Token(Character, chars[|chars| - 1], cfg.characterSize);
      PopTracks(Placed(st), token, chars, characters);
      OtherTracks(Placed(st), token, Reminder, rems, reminders);
      hand := State(st.cursor, chars[..|chars| - 1], rems, Some(token), st.closed);
    } else {
      var token := Token(Reminder, rems[|rems| - 1], cfg.reminderSize);
      PopTracks(Placed(st), token, rems, reminders);
      OtherTracks(Placed(st), token, Character, chars, characters);
      hand := State(st.cursor, chars, rems[..|rems| - 1], Some(token), st.closed);
    }
    assert Placed(hand) == Placed(st);
  }

  /** Popping the last element of `list` into the hand keeps its class tracked. */
  lemma PopTracks<P>(placed: seq<Placement<P>>, token: Token<P>, list: seq<P>, input: seq<P>)
    requires PoppedFrom(list, input) && list != [] && token.path == list[|list| - 1]
    requires Tracks(placed, None, token.kind, list, input)
    ensures PoppedFrom(list[..|list| - 1], input)
    ensures Tracks(placed, Some(token), token.kind, list[..|list| - 1], input)
  {
    ReversePop(input, |list|);
  }

  /** A token in hand of another class leaves class `k` tracked as before. */
  lemma OtherTracks<P>(placed: seq<Placement<P>>, token: Token<P>, k: Kind, list: seq<P>, input: seq<P>)
    requires PoppedFrom(list, input) && token.kind != k
    requires Tracks(placed, None, k, list, input)
    ensures Tracks(placed, Some(token), k, list, input)
  {
  }

  /** The second half of a loop iteration (source lines 108-167): wrap if the token in hand
      does not fit the row; if it does not fit the page either, keep it for the next sheet,
      backfill, save the sheet and start a fresh one; otherwise paste it. */
  method Put<P>(cfg: Config, hand: State<P>, ghost characters: seq<P>, ghost reminders: seq<P>) returns (st: State<P>)
    requires SizesFit(cfg)
    requires Accounted(cfg, hand, characters, reminders) && hand.pending.Some?
    ensures var w := RowFor(cfg.geometry, hand.cursor, hand.pending.value.size);
            && (st.pending.None? <==> w.y + hand.pending.value.size <= Bottom(cfg.geometry))
            && (st.pending.None? ==> st.cursor == Paste(w, hand.pending.value, cfg.padding) && st.closed == hand.closed)
            && (st.pending.Some? ==>
                  && |st.closed| == |hand.closed| + 1 && st.closed[..|hand.closed|] == hand.closed
                  && BackfilledSheet(cfg, w, hand.reminders, st.reminders, st.closed[|hand.closed|]))
    ensures st.pending.None? ==> st.characters == hand.characters && st.reminders == hand.reminders
    ensures st.pending.Some? ==> st.pending == hand.pending && st.cursor == Fresh(cfg.geometry)
    ensures Measure(st) <= Measure(hand)
    ensures hand.cursor.sheet == [] ==> Measure(st) < Measure(hand)
    ensures Inv(cfg, st, characters, reminders)
  {
    var g := cfg.geometry;
    var token := hand.pending.value;
    var c := hand.cursor;
    if c.x + token.size > Right(g) {
      c := NewRow(g, c, cfg.padding);
    }
    assert c == RowFor(g, hand.cursor, token.size);
    if c.y + token.size > Bottom(g) {
      st := Defer(cfg, hand, c, characters, reminders);
    } else {
      var c' := Place(g, c, token, cfg.padding);
      st := State(c', hand.characters, hand.reminders, None, hand.closed);
      PastedAccounted(cfg, hand, st, Placement(token, c.x, c.y), characters, reminders);
    }
  }

  /** Pasting the token in hand keeps the bookkeeping. */
  lemma PastedAccounted<P>(cfg: Config, hand: State<P>, st: State<P>, p: Placement<P>, characters: seq<P>, reminders: seq<P>)
    requires Accounted(cfg, hand, characters, reminders) && hand.pending == Some(p.token)
    requires CursorInv(cfg.geometry, st.cursor, cfg.padding) && st.cursor.sheet == hand.cursor.sheet + [p]
    requires st == State(st.cursor, hand.characters, hand.reminders, None, hand.closed)
    ensures Accounted(cfg, st, characters, reminders)
  {
    assert Placed(st) == Placed(hand) + [p];
    PathsOfSnoc(Placed(hand), p, Character);
    PathsOfSnoc(Placed(hand), p, Reminder);
  }

  /** `saved` is the sheet under the cursor `c` backfilled from `reminders0` down to
      `reminders`: reminders popped from the end of the list and pasted by the shelf rule at
      the reminder size, until none is left or the next one does not fit below the cursor. */
  ghost predicate BackfilledSheet<P>(cfg: Config, c: Cursor<P>, reminders0: seq<P>, reminders: seq<P>, saved: seq<Placement<P>>) {
    && PoppedFrom(reminders, reminders0)
    && |c.sheet| <= |saved| && saved[..|c.sheet|] == c.sheet
    && ReminderSized(cfg, saved[|c.sheet|..])
    && PathsOf(saved[|c.sheet|..], Reminder) == Reverse(reminders0[|reminders|..])
    && var shelved := ShelveAll(cfg.geometry, c, TokensOf(saved[|c.sheet|..]), cfg.padding);
       && shelved.sheet == saved
       && (reminders == [] || RowFor(cfg.geometry, shelved, cfg.reminderSize).y + cfg.reminderSize > Bottom(cfg.geometry))
  }

  /** What `Backfill` returns describes the sheet it leaves. */
  lemma BackfillSaved<P>(cfg: Config, c0: Cursor<P>, reminders0: seq<P>, c: Cursor<P>, reminders: seq<P>, added: seq<Placement<P>>)
    requires c.sheet == c0.sheet + added
    requires PoppedFrom(reminders, reminders0)
    requires ReminderSized(cfg, added)
    requires PathsOf(added, Reminder) == Reverse(reminders0[|reminders|..])
    requires var shelved := ShelveAll(cfg.geometry, c0, TokensOf(added), cfg.padding);
             c == if reminders == [] then shelved else RowFor(cfg.geometry, shelved, cfg.reminderSize)
    requires reminders == [] || c.y + cfg.reminderSize > Bottom(cfg.geometry)
    ensures BackfilledSheet(cfg, c0, reminders0, reminders, c.sheet)
  {
    assert c.sheet[|c0.sheet|..] == added;
  }

  /** The token in hand does not fit below the cursor `c`: it stays pending while the sheet is
      backfilled with reminders and saved. */
  method Defer<P>(cfg: Config, hand: State<P>, c: Cursor<P>, ghost characters: seq<P>, ghost reminders: seq<P>) returns (st: State<P>)
    requires SizesFit(cfg)
    requires Accounted(cfg, hand, characters, reminders) && hand.pending.Some?
    requires CursorInv(cfg.geometry, c, cfg.padding) && c.sheet == hand.cursor.sheet
    requires c.y + hand.pending.value.size > Bottom(cfg.geometry)
    requires c.x + hand.pending.value.size <= Right(cfg.geometry)
    ensures Inv(cfg, st, characters, reminders)
    ensures st.pending == hand.pending && st.cursor == Fresh(cfg.geometry)
    ensures st.characters == hand.characters && |st.reminders| <= |hand.reminders|
    ensures hand.cursor.sheet != []
    ensures |st.closed| == |hand.closed| + 1 && st.closed[..|hand.closed|] == hand.closed
            && BackfilledSheet(cfg, c, hand.reminders, st.reminders, st.closed[|hand.closed|])
  {
    var g := cfg.geometry;
    if c.sheet == [] {
      assert false;
    }
    var filled, rems, added := Backfill(cfg, c, hand.reminders);
    st := State(Fresh(g), hand.characters, rems, hand.pending, hand.closed + [filled.sheet]);
    SavedSheet(cfg, hand.closed, filled.sheet);
    ReminderSizedIsSized(cfg, added);
    SizedAppend(cfg, Placed(hand), added);
    SaveFlatten(hand.closed, hand.cursor.sheet, added);
    SavedAccounted(cfg, Placed(hand), added, hand.pending, hand.characters, hand.reminders, st, characters, reminders);
    BackfillSaved(cfg, c, hand.reminders, filled, rems, added);
    assert st.closed[..|hand.closed|] == hand.closed;
  }

  lemma ReminderSizedIsSized<P>(cfg: Config, ps: seq<Placement<P>>)
    requires ReminderSized(cfg, ps)
    ensures Sized(cfg, ps)
    ensures forall i :: 0 <= i < |ps| ==> ps[i].token.kind == Reminder
  {
  }

  /** Saving the sheet with the backfilled reminders `added` after the pastes `placed` keeps
      the bookkeeping, with the token in hand deferred to the fresh sheet. */
  lemma SavedAccounted<P>(cfg: Config, placed: seq<Placement<P>>, added: seq<Placement<P>>, pending: Option<Token<P>>,
                          chars: seq<P>, rems: seq<P>, st: State<P>, characters: seq<P>, reminders: seq<P>)
    requires PoppedFrom(chars, characters) && PoppedFrom(rems, reminders) && PoppedFrom(st.reminders, rems)
    requires Tracks(placed, pending, Character, chars, characters)
    requires Tracks(placed, pending, Reminder, rems, reminders)
    requires pending.Some? && pending.value.size == SizeOf(cfg, pending.value.kind)
    requires forall i :: 0 <= i < |added| ==> added[i].token.kind == Reminder
    requires pending.value.kind == Reminder ==> added == [] && st.reminders == rems
    requires PathsOf(added, Reminder) == Reverse(rems[|st.reminders|..])
    requires Sized(cfg, placed + added)
    requires st.cursor == Fresh(cfg.geometry) && st.characters == chars && st.pending == pending
    requires SavedWellPacked(cfg, st.closed) && Flatten(st.closed) == placed + added
    ensures Inv(cfg, st, characters, reminders)
  {
    assert Placed(st) == placed + added;
    if pending.value.kind == Reminder {
      assert placed + added == placed;
    } else {
      BackfillTracks(placed, added, pending, rems, st.reminders, reminders);
    }
    NoCharactersTracks(placed, added, pending, chars, characters);
  }

  lemma SaveFlatten<P>(closed: seq<seq<Placement<P>>>, sheet: seq<Placement<P>>, added: seq<Placement<P>>)
    ensures Flatten(closed + [sheet + added]) == (Flatten(closed) + sheet) + added
  {
    FlattenSnoc(closed, sheet + added);
  }

  /** Pasting reminders leaves the character tokens tracked. */
  lemma NoCharactersTracks<P>(placed: seq<Placement<P>>, added: seq<Placement<P>>, pending: Option<Token<P>>, list: seq<P>, input: seq<P>)
    requires forall i :: 0 <= i < |added| ==> added[i].token.kind == Reminder
    requires PoppedFrom(list, input) && Tracks(placed, pending, Character, list, input)
    ensures Tracks(placed + added, pending, Character, list, input)
  {
    PathsOfAppend(placed, added, Character);
    NoCharacters(added);
  }

  /** Backfilling the reminders popped from `rems` down to `rems'`, with no reminder in hand,
      keeps the reminders tracked. */
  lemma BackfillTracks<P>(placed: seq<Placement<P>>, added: seq<Placement<P>>, pending: Option<Token<P>>,
                          rems: seq<P>, rems': seq<P>, reminders: seq<P>)
    requires PoppedFrom(rems, reminders) && PoppedFrom(rems', rems)
    requires PathsOf(added, Reminder) == Reverse(rems[|rems'|..])
    requires !(pending.Some? && pending.value.kind == Reminder)
    requires Tracks(placed, pending, Reminder, rems, reminders)
    ensures PoppedFrom(rems', reminders)
    ensures Tracks(placed + added, pending, Reminder, rems', reminders)
  {
    PathsOfAppend(placed, added, Reminder);
    assert reminders[|rems'|..] == reminders[|rems'|..|rems|] + reminders[|rems|..];
    assert rems[|rems'|..] == reminders[|rems'|..|rems|];
    ReverseAppend(reminders[|rems'|..|rems|], reminders[|rems|..]);
  }

  /** The packing loop of `main` (source lines 77-170) on any pair of token lists. */
  method Pack<P>(cfg: Config, characters: seq<P>, reminders: seq<P>) returns (sheets: seq<seq<Placement<P>>>)
    requires SizesFit(cfg)
    ensures Packed(cfg, sheets, characters, reminders)
    ensures characters == [] && reminders == [] ==> sheets == []
  {
    var st: State<P> := State(Fresh(cfg.geometry), characters, reminders, None, []);
    assert characters[|characters|..] == [] && reminders[|reminders|..] == [];
    while st.characters != [] || st.reminders != [] || st.pending.Some?
      invariant Inv(cfg, st, characters, reminders)
      decreases Measure(st)
    {
      var hand := Take(cfg, st, characters, reminders);
      st := Put(cfg, hand, characters, reminders);
    }
    if st.cursor.sheet != [] {
      sheets := st.closed + [st.cursor.sheet];
    } else {
      sheets := st.closed;
    }
    Finish(cfg, st, sheets, characters, reminders);
  }

  /** After the loop, saving the last sheet when it has content completes the packing. */
  lemma Finish<P>(cfg: Config, st: State<P>, sheets: seq<seq<Placement<P>>>, characters: seq<P>, reminders: seq<P>)
    requires Inv(cfg, st, characters, reminders)
    requires st.characters == [] && st.reminders == [] && st.pending.None?
    requires sheets == if st.cursor.sheet != [] then st.closed + [st.cursor.sheet] else st.closed
    ensures Packed(cfg, sheets, characters, reminders)
    ensures characters == [] && reminders == [] ==> sheets == []
  {
    SaveLast(cfg, st.closed, st.cursor.sheet, sheets);
    assert characters[0..] == characters && reminders[0..] == reminders;
    SheetsNoOverlap(cfg, sheets);
    PathsOfPartition(Flatten(sheets));
    FlattenNonEmpty(cfg, sheets);
  }

  /** Saving the last sheet only when it has content keeps every saved sheet non-empty. */
  lemma SaveLast<P>(cfg: Config, closed: seq<seq<Placement<P>>>, sheet: seq<Placement<P>>, sheets: seq<seq<Placement<P>>>)
    requires SavedWellPacked(cfg, closed) && WellPacked(cfg.geometry, sheet, cfg.padding)
    requires sheets == if sheet != [] then closed + [sheet] else closed
    ensures SavedWellPacked(cfg, sheets)
    ensures Flatten(sheets) == Flatten(closed) + sheet
  {
    if sheet != [] {
      FlattenSnoc(closed, sheet);
    } else {
      assert Flatten(closed) + sheet == Flatten(closed);
    }
  }

  lemma {:induction false} NoCharacters<P>(ps: seq<Placement<P>>)
    requires forall i :: 0 <= i < |ps| ==> ps[i].token.kind == Reminder
    ensures PathsOf(ps, Character) == []
    decreases |ps|
  {
    if ps != [] {
      NoCharacters(ps[..|ps| - 1]);
    }
  }

  /** `main` as written: the empty-input guard tests `character_tokens` twice (source line 70),
      so with no character tokens it returns before packing, whatever reminder tokens exist. */
  method PackSheets<P>(cfg: Config, characters: seq<P>, reminders: seq<P>) returns (sheets: seq<seq<Placement<P>>>)
    requires SizesFit(cfg)
    ensures characters == [] ==> sheets == []
    ensures characters != [] ==> Packed(cfg, sheets, characters, reminders)
  {
    if characters == [] {
      return [];
    }
    sheets := Pack(cfg, characters, reminders);
  }

  /** What the guard as written loses: with reminder tokens but no character tokens, the empty
      result of `PackSheets` does not pack them. */
  lemma GuardLosesReminders<P>(cfg: Config, reminders: seq<P>)
    requires reminders != []
    ensures !Packed<P>(cfg, [], [], reminders)
  {
    assert Flatten<P>([]) == [];
  }

  /** `main` with the guard testing both lists, as its message intends: every token of either
      class is packed, and empty input yields no sheet. */
  method PackSheetsFixed<P>(cfg: Config, characters: seq<P>, reminders: seq<P>) returns (sheets: seq<seq<Placement<P>>>)
    requires SizesFit(cfg)
    ensures Packed(cfg, sheets, characters, reminders)
    ensures characters == [] && reminders == [] ==> sheets == []
  {
    if characters == [] && reminders == [] {
      return [];
    }
    sheets := Pack(cfg, characters, reminders);
  }
}

=== FILE: reminder_counts.dfy ===
/** update_reminder_counts.py: merge the reminders of the "...tokens" helper records into the
    characters they belong to, then ask, for each distinct reminder of each character, how many
    tokens to print, and replace the reminder list by the texts with a positive count. The
    user's typed lines are an input sequence; a value read past its end is an error. */
module ReminderCounts {
  import opened Wrappers
  import opened Strings
  import opened Characters

  /** Why the script stops: a record lacks a key the code indexes (`KeyError`), a reminder
      list holds an object where a text is needed (`TypeError`, unhashable), or the typed
      input ends (`EOFError`). */
  datatype Failure = KeyError | Unhashable | EndOfInput

  // ---------------------------------------------------------------------------------------
  // One answer (`get_integer_input`, source lines 5-18)
  // ---------------------------------------------------------------------------------------

  /** What a typed line means once stripped: nothing, the word `skip`, a whole number, or
      anything else. */
  datatype Answer = Blank | Skip | Number(n: int) | Invalid

  function Classify(line: string): Answer {
    var t := Strip(line);
    if t == "" then Blank
    else if t == "skip" then Skip
    else if IsIntLiteral(t) then Number(IntValue(t))
    else Invalid
  }

  /** The count an accepted answer gives: a blank line counts 1 (although the script's comment
      and banner say 0), `skip` gives no count, a number gives itself. */
  function CountOf(a: Answer): Option<int>
    requires a != Invalid
  {
    match a
    case Blank => Some(1)
    case Skip => None
    case Number(n) => Some(n)
  }

  /** A number typed in decimal, with or without surrounding blanks, is read back as that
      number. */
  lemma ClassifyNumber(n: nat, pre: string, post: string)
    requires forall k :: 0 <= k < |pre| ==> IsSpace(pre[k])
    requires forall k :: 0 <= k < |post| ==> IsSpace(post[k])
    ensures Classify(pre + NatToString(n) + post) == Number(n)
  {
    var d := NatToString(n);
    StripSpaced(pre, d, post);
    ClassifyDigits(d);
    ParseNatToString(n);
  }

  /** A run of decimal digits is neither blank nor `skip`, and is read as its value. */
  lemma ClassifyDigits(d: string)
    requires AllDigits(d) && d != []
    ensures Classify(d) == Number(ParseNat(d))
  {
    assert Strip(d) == d by {
      assert [] + d + [] == d;
      StripSpaced([], d, []);
    }
    assert IsDigit(d[0]);
    assert d != "" && d != "skip";
    assert IsIntLiteral(d) && IntValue(d) == ParseNat(d) by {
      assert d[0] != '+' && d[0] != '-';
    }
  }

  /** A line of blanks only is a blank answer, which counts one. */
  lemma ClassifyBlank(line: string)
    requires forall k :: 0 <= k < |line| ==> IsSpace(line[k])
    ensures Classify(line) == Blank && CountOf(Classify(line)) == Some(1)
  {
  }

  /** Stripping removes exactly the blanks around a text that neither starts nor ends with one. */
  lemma StripSpaced(pre: string, d: string, post: string)
    requires forall k :: 0 <= k < |pre| ==> IsSpace(pre[k])
    requires forall k :: 0 <= k < |post| ==> IsSpace(post[k])
    requires AllDigits(d) && d != []
    ensures Strip(pre + d + post) == d
  {
    var s := pre + d + post;
    assert !IsSpace(s[|pre|]);
    assert !IsSpace(s[|pre| + |d| - 1]);
    var i := StripStart(s);
    assert i == |pre|;
    var j := StripEnd(s, i);
    assert j == |pre| + |d|;
    assert s[i..j] == d;
  }

  /** The result of asking once: the count (or none, for `skip`) and the lines not yet read. */
  datatype Reply = Reply(count: Option<int>, rest: seq<string>)

  /** Read lines until one is accepted. */
  function Ask(lines: seq<string>): Result<Reply, Failure>
    decreases |lines|
  {
    if lines == [] then Err(EndOfInput)
    else if Classify(lines[0]) != Invalid then Ok(Reply(CountOf(Classify(lines[0])), lines[1..]))
    else Ask(lines[1..])
  }

  /** Asking fails, with `EndOfInput`, exactly when no line is accepted. */
  lemma {:induction false} AskFails(lines: seq<string>)
    ensures Ask(lines).Err? <==> forall k :: 0 <= k < |lines| ==> Classify(lines[k]) == Invalid
    ensures Ask(lines).Err? ==> Ask(lines).error == EndOfInput
    decreases |lines|
  {
    if lines != [] && Classify(lines[0]) == Invalid {
      AskFails(lines[1..]);
      assert forall k :: 1 <= k < |lines| ==> lines[k] == lines[1..][k - 1];
    }
  }

  /** Asking passes over invalid lines, answers with the count of the first accepted line and
      leaves the lines after it unread. */
  lemma {:induction false} AskReads(lines: seq<string>)
    requires Ask(lines).Ok?
    ensures |Ask(lines).value.rest| < |lines|
    ensures Ask(lines).value.rest == lines[|lines| - |Ask(lines).value.rest|..]
    ensures Classify(lines[|lines| - |Ask(lines).value.rest| - 1]) != Invalid
    ensures Ask(lines).value.count == CountOf(Classify(lines[|lines| - |Ask(lines).value.rest| - 1]))
    ensures forall k :: 0 <= k < |lines| - |Ask(lines).value.rest| - 1 ==> Classify(lines[k]) == Invalid
    decreases |lines|
  {
    if Classify(lines[0]) == Invalid {
      var tail := lines[1..];
      AskReads(tail);
      var rest := Ask(tail).value.rest;
      assert Ask(lines) == Ask(tail);
      assert tail[|tail| - |rest|..] == lines[|lines| - |rest|..];
      assert tail[|tail| - |rest| - 1] == lines[|lines| - |rest| - 1];
      forall k | 0 <= k < |lines| - |rest| - 1
        ensures Classify(lines[k]) == Invalid
      {
        if k > 0 {
          assert lines[k] == tail[k - 1];
        }
      }
    }
  }

  // ---------------------------------------------------------------------------------------
  // Distinct reminders in order (`sorted(list(Counter(...).keys()))`, source line 50)
  // ---------------------------------------------------------------------------------------

  /** Put `x` into a strictly ascending list unless it is already there. */
  function Insert(x: string, s: seq<string>): seq<string>
    decreases |s|
  {
    if s == [] then [x]
    else if x == s[0] then s
    else if LexLess(x, s[0]) then [x] + s
    else [s[0]] + Insert(x, s[1..])
  }

  /** The elements of a strictly ascending list after its head are all above the head. */
  lemma SortedTail(s: seq<string>)
    requires StrictlySorted(s) && s != []
    ensures StrictlySorted(s[1..])
    ensures forall y :: y in s[1..] ==> LexLess(s[0], y)
  {
    forall y | y in s[1..]
      ensures LexLess(s[0], y)
    {
      var k :| 0 <= k < |s| - 1 && s[1..][k] == y;
      assert s[k + 1] == y;
    }
  }

  /** A list that is strictly ascending after its head, and whose head is below every later
      element, is strictly ascending. */
  lemma SortedCons(x: string, s: seq<string>)
    requires StrictlySorted(s)
    requires forall y :: y in s ==> LexLess(x, y)
    ensures StrictlySorted([x] + s)
  {
    var r := [x] + s;
    forall i, j | 0 <= i < j < |r|
      ensures LexLess(r[i], r[j])
    {
      if i == 0 {
        assert r[j] == s[j - 1];
        assert r[j] in s;
      } else {
        assert r[i] == s[i - 1] && r[j] == s[j - 1];
      }
    }
  }

  /** Inserting keeps the list strictly ascending and adds exactly `x`. */
  lemma {:induction false} InsertSorted(x: string, s: seq<string>)
    requires StrictlySorted(s)
    ensures StrictlySorted(Insert(x, s))
    ensures forall y :: y in Insert(x, s) <==> y == x || y in s
    decreases |s|
  {
    if s != [] && x != s[0] {
      SortedTail(s);
      if LexLess(x, s[0]) {
        forall y | y in s
          ensures LexLess(x, y)
        {
          if y != s[0] {
            assert y in s[1..];
            LexLessTransitive(x, s[0], y);
          }
        }
        SortedCons(x, s);
      } else {
        LexLessTotal(x, s[0]);
        InsertSorted(x, s[1..]);
        SortedCons(s[0], Insert(x, s[1..]));
        assert s == [s[0]] + s[1..];
      }
    }
  }

  /** The distinct elements of `xs`, ascending. */
  function SortedUnique(xs: seq<string>): seq<string>
    decreases |xs|
  {
    if xs == [] then [] else Insert(xs[|xs| - 1], SortedUnique(xs[..|xs| - 1]))
  }

  /** `sorted(set(xs))`: strictly ascending, holding exactly the elements of `xs`. */
  lemma {:induction false} SortedUniqueSpec(xs: seq<string>)
    ensures StrictlySorted(SortedUnique(xs))
    ensures forall y :: y in SortedUnique(xs) <==> y in xs
    decreases |xs|
  {
    if xs != [] {
      var front := xs[..|xs| - 1];
      SortedUniqueSpec(front);
      InsertSorted(xs[|xs| - 1], SortedUnique(front));
      assert xs == front + [xs[|xs| - 1]];
    }
  }

  /** A strictly ascending list is determined by its elements, so `SortedUnique` is the one
      list with the two properties above. */
  lemma {:induction false} SortedUniqueDetermined(a: seq<string>, b: seq<string>)
    requires StrictlySorted(a) && StrictlySorted(b)
    requires forall y :: y in a <==> y in b
    ensures a == b
    decreases |a|
  {
    assert b != [] ==> b[0] in a;
    if a != [] {
      assert a[0] in b;
      SortedTail(a);
      SortedTail(b);
      if a[0] != b[0] {
        assert a[0] in b[1..] by {
          assert a[0] in b;
        }
        assert b[0] in a[1..] by {
          assert b[0] in a;
        }
        LexLessTransitive(a[0], b[0], a[0]);
        LexLessIrreflexive(a[0]);
      }
      forall y
        ensures y in a[1..] <==> y in b[1..]
      {
        if y in a[1..] {
          assert y != a[0] by {
            LexLessIrreflexive(y);
          }
          assert y in b;
        }
        if y in b[1..] {
          assert y != b[0] by {
            LexLessIrreflexive(y);
          }
          assert y in a;
        }
      }
      SortedUniqueDetermined(a[1..], b[1..]);
      assert a == [a[0]] + a[1..] && b == [b[0]] + b[1..];
    }
  }

  // ---------------------------------------------------------------------------------------
  // One character's new reminder list (source lines 49-61)
  // ---------------------------------------------------------------------------------------

  /** The new reminder entries and the lines not yet read. */
  datatype Rebuilt = Rebuilt(entries: seq<ReminderEntry>, rest: seq<string>)

  /** What the rebuilt list must be: counted entries with positive counts, for texts of the old
      list, ascending with no text twice. */
  predicate CountedFrom(entries: seq<ReminderEntry>, texts: seq<string>) {
    (forall k :: 0 <= k < |entries| ==> entries[k].Tally? && entries[k].count > 0 && entries[k].text in texts)
    && StrictlySorted(TextsOf(entries))
  }

  /** Ask for each text in turn; keep the text with its count when the count is positive, drop
      it when the answer is `skip` or the count is not positive. */
  function Rebuild(texts: seq<string>, lines: seq<string>): Result<Rebuilt, Failure>
    decreases |texts|
  {
    if texts == [] then Ok(Rebuilt([], lines))
    else
      match Ask(lines)
      case Err(e) => Err(e)
      case Ok(reply) =>
        match Rebuild(texts[1..], reply.rest)
        case Err(e) => Err(e)
        case Ok(tail) =>
          var keep := if reply.count.Some? && reply.count.value > 0 then [Tally(texts[0], reply.count.value)] else [];
          Ok(Rebuilt(keep + tail.entries, tail.rest))
  }

  /** The counts of the next `n` accepted answers, in order, and the lines left after them. */
  datatype Replies = Replies(counts: seq<Option<int>>, rest: seq<string>)

  /** Ask `n` times in a row. */
  function AskAll(n: nat, lines: seq<string>): Result<Replies, Failure> {
    if n == 0 then Ok(Replies([], lines))
    else
      match Ask(lines)
      case Err(e) => Err(e)
      case Ok(reply) =>
        match AskAll(n - 1, reply.rest)
        case Err(e) => Err(e)
        case Ok(more) => Ok(Replies([reply.count] + more.counts, more.rest))
  }

  /** Rebuilding asks once per text: it succeeds exactly when that many answers can be read,
      and leaves the same lines unread. */
  lemma {:induction false} RebuildAsks(texts: seq<string>, lines: seq<string>)
    ensures Rebuild(texts, lines).Ok? <==> AskAll(|texts|, lines).Ok?
    ensures Rebuild(texts, lines).Ok? ==>
              |AskAll(|texts|, lines).value.counts| == |texts|
              && Rebuild(texts, lines).value.rest == AskAll(|texts|, lines).value.rest
    decreases |texts|
  {
    if texts != [] && Ask(lines).Ok? {
      RebuildAsks(texts[1..], Ask(lines).value.rest);
    }
  }

  /** The first question of a rebuild: its answer heads the counts, and the entries are the
      entry it keeps, if any, followed by the rebuild of the other texts. */
  lemma RebuildHead(texts: seq<string>, lines: seq<string>)
    requires Rebuild(texts, lines).Ok? && texts != []
    ensures Ask(lines).Ok? && Rebuild(texts[1..], Ask(lines).value.rest).Ok?
    ensures AskAll(|texts|, lines).Ok? && AskAll(|texts| - 1, Ask(lines).value.rest).Ok?
    ensures var reply := Ask(lines).value;
            && AskAll(|texts|, lines).value.counts == [reply.count] + AskAll(|texts| - 1, reply.rest).value.counts
            && Rebuild(texts, lines).value.entries ==
                 (if reply.count.Some? && reply.count.value > 0 then [Tally(texts[0], reply.count.value)] else [])
                 + Rebuild(texts[1..], reply.rest).value.entries
  {
    RebuildAsks(texts, lines);
    RebuildAsks(texts[1..], Ask(lines).value.rest);
  }

  /** No entry rebuilt from the texts after the first of an ascending list is about the first. */
  lemma RebuildTailOmitsHead(texts: seq<string>, lines: seq<string>)
    requires texts != [] && Rebuild(texts[1..], lines).Ok? && StrictlySorted(texts)
    ensures texts[0] !in TextsOf(Rebuild(texts[1..], lines).value.entries)
  {
    var tail := Rebuild(texts[1..], lines).value.entries;
    RebuildEntries(texts[1..], lines);
    SortedTail(texts);
    LexLessIrreflexive(texts[0]);
    forall k | 0 <= k < |tail|
      ensures TextsOf(tail)[k] != texts[0]
    {
      assert tail[k].text in texts[1..];
    }
  }

  /** On distinct ascending texts, a positive count `n` typed for `texts[i]` keeps that text
      with count `n`, and nothing else does. */
  lemma {:induction false} RebuildKeeps(texts: seq<string>, lines: seq<string>, i: nat, n: int)
    requires Rebuild(texts, lines).Ok? && StrictlySorted(texts) && i < |texts|
    ensures AskAll(|texts|, lines).Ok? && |AskAll(|texts|, lines).value.counts| == |texts|
    ensures Tally(texts[i], n) in Rebuild(texts, lines).value.entries <==>
              AskAll(|texts|, lines).value.counts[i] == Some(n) && n > 0
    decreases |texts|
  {
    RebuildAsks(texts, lines);
    RebuildHead(texts, lines);
    var reply := Ask(lines).value;
    var tail := Rebuild(texts[1..], reply.rest).value.entries;
    RebuildTailOmitsHead(texts, reply.rest);
    if i > 0 {
      SortedTail(texts);
      RebuildKeeps(texts[1..], reply.rest, i - 1, n);
      assert texts[1..][i - 1] == texts[i];
      assert texts[i] != texts[0] by {
        assert texts[i] in texts[1..];
        LexLessIrreflexive(texts[0]);
      }
    }
  }

  /** On distinct ascending texts, `skip` or a count that is not positive typed for `texts[i]`
      leaves no entry for that text, and a positive count leaves one. */
  lemma {:induction false} RebuildDrops(texts: seq<string>, lines: seq<string>, i: nat)
    requires Rebuild(texts, lines).Ok? && StrictlySorted(texts) && i < |texts|
    ensures AskAll(|texts|, lines).Ok? && |AskAll(|texts|, lines).value.counts| == |texts|
    ensures texts[i] in TextsOf(Rebuild(texts, lines).value.entries) <==>
              AskAll(|texts|, lines).value.counts[i].Some? && AskAll(|texts|, lines).value.counts[i].value > 0
    decreases |texts|
  {
    RebuildAsks(texts, lines);
    RebuildHead(texts, lines);
    var reply := Ask(lines).value;
    var tail := Rebuild(texts[1..], reply.rest).value.entries;
    var keep := if reply.count.Some? && reply.count.value > 0 then [Tally(texts[0], reply.count.value)] else [];
    assert TextsOf(keep + tail) == TextsOf(keep) + TextsOf(tail);
    assert TextsOf(keep) == if keep == [] then [] else [texts[0]];
    RebuildTailOmitsHead(texts, reply.rest);
    if i > 0 {
      SortedTail(texts);
      RebuildDrops(texts[1..], reply.rest, i - 1);
      assert texts[1..][i - 1] == texts[i];
      assert texts[i] != texts[0] by {
        assert texts[i] in texts[1..];
        LexLessIrreflexive(texts[0]);
      }
    }
  }

  /** Rebuilding stops early only when the typed input runs out. */
  lemma {:induction false} RebuildFails(texts: seq<string>, lines: seq<string>)
    ensures Rebuild(texts, lines).Err? ==> Rebuild(texts, lines).error == EndOfInput
    decreases |texts|
  {
    if texts != [] {
      AskFails(lines);
      if Ask(lines).Ok? {
        RebuildFails(texts[1..], Ask(lines).value.rest);
      }
    }
  }

  /** The rebuilt list holds only counted entries with positive counts, for texts of the old
      list, at most one per old text. */
  lemma {:induction false} RebuildEntries(texts: seq<string>, lines: seq<string>)
    requires Rebuild(texts, lines).Ok?
    ensures |Rebuild(texts, lines).value.entries| <= |texts|
    ensures forall k :: 0 <= k < |Rebuild(texts, lines).value.entries| ==>
              Rebuild(texts, lines).value.entries[k].Tally? && Rebuild(texts, lines).value.entries[k].count > 0
    ensures forall k :: 0 <= k < |Rebuild(texts, lines).value.entries| ==>
              Rebuild(texts, lines).value.entries[k].text in texts
    decreases |texts|
  {
    if texts != [] {
      var reply := Ask(lines).value;
      var tail := Rebuild(texts[1..], reply.rest).value.entries;
      RebuildEntries(texts[1..], reply.rest);
      var keep := if reply.count.Some? && reply.count.value > 0 then [Tally(texts[0], reply.count.value)] else [];
      var entries := Rebuild(texts, lines).value.entries;
      assert entries == keep + tail;
      RebuildStep(texts, keep, tail);
      forall k | 0 <= k < |entries|
        ensures entries[k].Tally? && entries[k].count > 0
      {
        if k >= |keep| {
          assert entries[k] == tail[k - |keep|];
        }
      }
    }
  }

  /** The rebuilt texts keep the old list's order, so they come out ascending with no text
      twice when the old list is `sorted(set(...))`. */
  lemma {:induction false} RebuildSorted(texts: seq<string>, lines: seq<string>)
    requires Rebuild(texts, lines).Ok? && StrictlySorted(texts)
    ensures CountedFrom(Rebuild(texts, lines).value.entries, texts)
    decreases |texts|
  {
    RebuildEntries(texts, lines);
    if texts != [] {
      var reply := Ask(lines).value;
      var tail := Rebuild(texts[1..], reply.rest).value.entries;
      SortedTail(texts);
      RebuildSorted(texts[1..], reply.rest);
      var keep := if reply.count.Some? && reply.count.value > 0 then [Tally(texts[0], reply.count.value)] else [];
      assert Rebuild(texts, lines).value.entries == keep + tail;
      RebuildStepSorted(texts, keep, tail);
    }
  }

  /** The step of `Rebuild`: the texts of the head entry (if any) and the rebuilt tail are
      texts of the old list. */
  lemma RebuildStep(texts: seq<string>, keep: seq<ReminderEntry>, tail: seq<ReminderEntry>)
    requires texts != [] && (keep == [] || (|keep| == 1 && keep[0].text == texts[0]))
    requires forall k :: 0 <= k < |tail| ==> tail[k].text in texts[1..]
    ensures forall k :: 0 <= k < |keep + tail| ==> (keep + tail)[k].text in texts
  {
    assert texts == [texts[0]] + texts[1..];
    assert forall k :: 0 <= k < |tail| ==> tail[k].text in texts;
  }

  /** The step of `Rebuild` on an ascending old list: the head text goes before the tail's
      texts, which are all later in the old list. */
  lemma RebuildStepSorted(texts: seq<string>, keep: seq<ReminderEntry>, tail: seq<ReminderEntry>)
    requires StrictlySorted(texts)
    requires texts != [] && (keep == [] || (|keep| == 1 && keep[0].text == texts[0]))
    requires forall k :: 0 <= k < |tail| ==> tail[k].text in texts[1..]
    requires StrictlySorted(TextsOf(tail))
    ensures StrictlySorted(TextsOf(keep + tail))
  {
    SortedTail(texts);
    if keep != [] {
      forall y | y in TextsOf(tail)
        ensures LexLess(texts[0], y)
      {
        var k :| 0 <= k < |tail| && TextsOf(tail)[k] == y;
        assert tail[k].text in texts[1..];
      }
      SortedCons(texts[0], TextsOf(tail));
      assert TextsOf(keep + tail) == [texts[0]] + TextsOf(tail);
    } else {
      assert keep + tail == tail;
    }
  }

  /** Pressing Enter at every question keeps every distinct reminder with a count of one. */
  lemma {:induction false} RebuildAllBlank(texts: seq<string>, lines: seq<string>)
    requires |lines| >= |texts|
    requires forall k :: 0 <= k < |lines| ==> lines[k] == ""
    ensures Rebuild(texts, lines).Ok?
    ensures |Rebuild(texts, lines).value.entries| == |texts|
    ensures forall k :: 0 <= k < |texts| ==> Rebuild(texts, lines).value.entries[k] == Tally(texts[k], 1)
    decreases |texts|
  {
    if texts != [] {
      assert Classify(lines[0]) == Blank;
      assert Ask(lines) == Ok(Reply(Some(1), lines[1..]));
      RebuildAllBlank(texts[1..], lines[1..]);
      var tail := Rebuild(texts[1..], lines[1..]).value.entries;
      assert Rebuild(texts, lines).value.entries == [Tally(texts[0], 1)] + tail;
    }
  }

  /** With an accepted answer ready for every text, rebuilding succeeds and reads exactly one
      line per text. */
  lemma {:induction false} RebuildEnough(texts: seq<string>, lines: seq<string>)
    requires |lines| >= |texts|
    requires forall k :: 0 <= k < |texts| ==> Classify(lines[k]) != Invalid
    ensures Rebuild(texts, lines).Ok?
    ensures Rebuild(texts, lines).value.rest == lines[|texts|..]
    decreases |texts|
  {
    if texts != [] {
      assert Ask(lines) == Ok(Reply(CountOf(Classify(lines[0])), lines[1..]));
      forall k | 0 <= k < |texts| - 1
        ensures Classify(lines[1..][k]) != Invalid
      {
        assert lines[1..][k] == lines[k + 1];
      }
      RebuildEnough(texts[1..], lines[1..]);
      assert lines[1..][|texts| - 1..] == lines[|texts|..];
    }
  }

  // ---------------------------------------------------------------------------------------
  // Merging the helper records (`combine_workaround_data`, source lines 73-82)
  // ---------------------------------------------------------------------------------------

  /** A helper record: its id contains `tokens`. */
  predicate IsSource(c: Character) {
    c.id.Some? && Contains(c.id.value, "tokens")
  }

  /** The id a helper record's reminders go to: its own with every `tokens` removed. */
  function TargetId(s: Character): (id: string)
    requires IsSource(s)
    ensures |id| < |s.id.value|
  {
    ReplaceAll(s.id.value, "tokens", "")
  }

  /** `s` hands its reminders to `t`: `t`'s id, lower-cased, is the target id of `s`. */
  predicate Merges(s: Character, t: Character) {
    IsSource(s) && t.id.Some? && Lower(t.id.value) == TargetId(s)
  }

  /** No record merges into itself: removing `tokens` shortens the id, lower-casing does not. */
  lemma NoSelfMerge(c: Character)
    ensures !Merges(c, c)
  {
    if IsSource(c) {
      assert |Lower(c.id.value)| == |c.id.value| > |TargetId(c)|;
    }
  }

  /** The inputs on which the script's in-place list updates behave like copying values: no
      merge target is itself a helper record, and a target without reminders of its own (which
      is handed the helper's very list) receives from one helper only. */
  predicate NoSharedMerge(data: seq<Character>) {
    (forall i, j :: 0 <= i < |data| && 0 <= j < |data| && Merges(data[i], data[j]) ==> !IsSource(data[j]))
    && (forall i1, i2, j :: 0 <= i1 < |data| && 0 <= i2 < |data| && 0 <= j < |data|
          && Merges(data[i1], data[j]) && Merges(data[i2], data[j]) && data[j].reminders.None?
          ==> i1 == i2)
  }

  /** The reminders of record `j` once the helpers among the first `n` records have been
      merged into it: each helper's list appended, in record order, to what `j` had. */
  function Merged(data: seq<Character>, j: nat, n: nat): Option<seq<ReminderEntry>>
    requires j < |data| && n <= |data|
  {
    if n == 0 then data[j].reminders
    else
      var prev := Merged(data, j, n - 1);
      if Merges(data[n - 1], data[j]) then Some(prev.GetOr([]) + data[n - 1].reminders.GetOr([]))
      else prev
  }

  /** A record that nobody merges into keeps its reminders; a record somebody merges into ends
      with reminders that start with its own. */
  lemma {:induction false} MergedKeeps(data: seq<Character>, j: nat, n: nat)
    requires j < |data| && n <= |data|
    ensures (forall i :: 0 <= i < n ==> !Merges(data[i], data[j])) ==> Merged(data, j, n) == data[j].reminders
    ensures (exists i :: 0 <= i < n && Merges(data[i], data[j])) ==> Merged(data, j, n).Some?
    ensures Merged(data, j, n).Some? ==> data[j].reminders.GetOr([]) <= Merged(data, j, n).value
    decreases n
  {
    if n > 0 {
      MergedKeeps(data, j, n - 1);
      var prev := Merged(data, j, n - 1);
      if Merges(data[n - 1], data[j]) {
        assert prev.GetOr([]) <= Merged(data, j, n).value;
        if prev.Some? {
          assert data[j].reminders.GetOr([]) <= prev.value;
        }
      }
    }
  }

  /** Every reminder of a helper that merges into record `j` ends up among `j`'s reminders. */
  lemma {:induction false} MergedGathers(data: seq<Character>, j: nat, n: nat, i: nat)
    requires j < |data| && i < n <= |data|
    requires Merges(data[i], data[j])
    ensures Merged(data, j, n).Some?
    ensures forall e :: e in data[i].reminders.GetOr([]) ==> e in Merged(data, j, n).value
    decreases n
  {
    if i < n - 1 {
      MergedGathers(data, j, n - 1, i);
      var prev := Merged(data, j, n - 1);
      if Merges(data[n - 1], data[j]) {
        assert Merged(data, j, n).value == prev.value + data[n - 1].reminders.GetOr([]);
      }
    } else {
      assert Merged(data, j, n).value == Merged(data, j, n - 1).GetOr([]) + data[i].reminders.GetOr([]);
    }
  }

  /** A helper record is no merge target, so it keeps its own reminders throughout. */
  lemma {:induction false} SourceUnmerged(data: seq<Character>, i: nat, n: nat)
    requires NoSharedMerge(data) && i < |data| && n <= |data| && IsSource(data[i])
    ensures Merged(data, i, n) == data[i].reminders
    decreases n
  {
    if n > 0 {
      SourceUnmerged(data, i, n - 1);
      assert !Merges(data[n - 1], data[i]);
    }
  }

  /** Where the merge raises `KeyError`: a record without an id, or a helper without reminders
      that has a target. */
  predicate CombineFails(data: seq<Character>) {
    (exists i :: 0 <= i < |data| && data[i].id.None?)
    || (exists i, j :: 0 <= i < |data| && 0 <= j < |data| && Merges(data[i], data[j]) && data[i].reminders.None?)
  }

  /** The records once every helper has been merged. */
  function Combined(data: seq<Character>): (r: seq<Character>)
    ensures |r| == |data|
  {
    seq(|data|, j requires 0 <= j < |data| => data[j].(reminders := Merged(data, j, |data|)))
  }

  /** The records once the helpers among the first `n` records have been merged. */
  predicate MergedUpTo(data: seq<Character>, cur: seq<Character>, n: nat)
    requires n <= |data|
  {
    |cur| == |data| && forall k :: 0 <= k < |data| ==> cur[k] == data[k].(reminders := Merged(data, k, n))
  }

  /** The inner loop for helper record `i`: append its reminders to every record it merges
      into. It raises `KeyError` at a record without an id, or at a target when the helper
      has no reminders. */
  method MergeSource(data: seq<Character>, cur: seq<Character>, i: nat) returns (r: Result<seq<Character>, Failure>)
    requires NoSharedMerge(data) && i < |data| && IsSource(data[i])
    requires MergedUpTo(data, cur, i)
    ensures r.Err? <==> (exists k :: 0 <= k < |data| && data[k].id.None?)
                        || (exists k :: 0 <= k < |data| && Merges(data[i], data[k]) && data[i].reminders.None?)
    ensures r.Err? ==> r.error == KeyError
    ensures r.Ok? ==> MergedUpTo(data, r.value, i + 1)
  {
    var c := cur[i];
    SourceUnmerged(data, i, i);
    assert c == data[i];
    var id := ReplaceAll(c.id.value, "tokens", "");
    var next := cur;
    for j := 0 to |data|
      invariant |next| == |data|
      invariant forall k :: 0 <= k < j ==> next[k] == data[k].(reminders := Merged(data, k, i + 1))
      invariant forall k :: j <= k < |data| ==> next[k] == cur[k]
      invariant forall k :: 0 <= k < j ==> data[k].id.Some?
      invariant forall k :: 0 <= k < j && Merges(data[i], data[k]) ==> data[i].reminders.Some?
    {
      var t := next[j];
      assert t == data[j].(reminders := Merged(data, j, i));
      if t.id.None? {
        return Err(KeyError);
      }
      if Lower(t.id.value) == id {
        assert Merges(data[i], data[j]);
        if c.reminders.None? {
          return Err(KeyError);
        }
        var merged := if t.reminders.Some? then t.reminders.value + c.reminders.value else c.reminders.value;
        assert Merged(data, j, i + 1) == Some(t.reminders.GetOr([]) + c.reminders.value);
        assert t.reminders.None? ==> [] + c.reminders.value == merged;
        next := next[j := t.(reminders := Some(merged))];
      } else {
        assert Merged(data, j, i + 1) == Merged(data, j, i);
      }
    }
    return Ok(next);
  }

  /** For each helper record, append its reminders to every record whose lower-cased id is the
      helper's id with `tokens` removed (or hand them over when that record has none). Only
      reminders change. */
  method Combine(data: seq<Character>) returns (r: Result<seq<Character>, Failure>)
    requires NoSharedMerge(data)
    ensures r.Err? <==> CombineFails(data)
    ensures r.Err? ==> r.error == KeyError
    ensures r.Ok? ==> r.value == Combined(data)
  {
    var cur := data;
    for i := 0 to |data|
      invariant MergedUpTo(data, cur, i)
      invariant forall k :: 0 <= k < i ==> data[k].id.Some?
      invariant forall k, j :: 0 <= k < i && 0 <= j < |data| && Merges(data[k], data[j]) ==> data[k].reminders.Some?
    {
      var c := cur[i];
      assert c.id == data[i].id;
      if c.id.None? {
        return Err(KeyError);
      }
      if Contains(c.id.value, "tokens") {
        var step := MergeSource(data, cur, i);
        if step.Err? {
          return Err(KeyError);
        }
        cur := step.value;
      } else {
        forall k | 0 <= k < |data|
          ensures Merged(data, k, i + 1) == Merged(data, k, i)
        {
        }
      }
    }
    assert MergedUpTo(data, cur, |data|);
    return Ok(cur);
  }

  /** What the merge does to record `j`: only its reminders change; they stay as they were
      when no helper matches it, and otherwise they start with its own list and hold every
      reminder of every matching helper. */
  lemma CombinedMeaning(data: seq<Character>, j: nat)
    requires j < |data|
    ensures Combined(data)[j].(reminders := data[j].reminders) == data[j]
    ensures (forall i :: 0 <= i < |data| ==> !Merges(data[i], data[j])) ==> Combined(data)[j] == data[j]
    ensures forall i :: 0 <= i < |data| && Merges(data[i], data[j]) ==>
              Combined(data)[j].reminders.Some?
              && data[j].reminders.GetOr([]) <= Combined(data)[j].reminders.value
              && forall e :: e in data[i].reminders.GetOr([]) ==> e in Combined(data)[j].reminders.value
  {
    MergedKeeps(data, j, |data|);
    forall i | 0 <= i < |data| && Merges(data[i], data[j])
      ensures Combined(data)[j].reminders.Some?
      ensures forall e :: e in data[i].reminders.GetOr([]) ==> e in Combined(data)[j].reminders.value
    {
      MergedGathers(data, j, |data|, i);
    }
  }

  // ---------------------------------------------------------------------------------------
  // Asking about every record (`update_reminder_counts`, source lines 42-64)
  // ---------------------------------------------------------------------------------------

  /** A record is asked about when it has a non-empty reminder list. */
  predicate NeedsCounts(c: Character) {
    c.reminders.Some? && c.reminders.value != []
  }

  /** A record after the update and the lines not yet read. */
  datatype Updated = Updated(character: Character, rest: seq<string>)

  /** One record: printing its ability needs the `ability` key, counting its reminders needs
      them to be texts, then the reminders are replaced by the counted distinct texts. */
  function UpdateOne(c: Character, lines: seq<string>): Result<Updated, Failure> {
    if !NeedsCounts(c) then Ok(Updated(c, lines))
    else if c.ability.None? then Err(KeyError)
    else if !AllTexts(c.reminders.value) then Err(Unhashable)
    else
      match Rebuild(SortedUnique(TextsOf(c.reminders.value)), lines)
      case Err(e) => Err(e)
      case Ok(rb) => Ok(Updated(c.(reminders := Some(rb.entries)), rb.rest))
  }

  /** How a record relates to its updated form: only the reminders change; a record that is
      not asked about does not change at all; an asked-about record gets counted entries for
      its own texts, ascending and without repeats. */
  predicate UpdatedFrom(before: Character, after: Character) {
    after == before.(reminders := after.reminders)
    && (!NeedsCounts(before) ==> after == before)
    && (NeedsCounts(before) ==> after.reminders.Some? && CountedFrom(after.reminders.value, TextsOf(before.reminders.value)))
  }

  /** The outcome of updating one record, and why it can fail. */
  lemma UpdateOneSpec(c: Character, lines: seq<string>)
    ensures UpdateOne(c, lines).Err? ==>
              NeedsCounts(c) && (c.ability.None? <==> UpdateOne(c, lines).error == KeyError)
    ensures UpdateOne(c, lines).Err? && c.ability.Some? ==>
              (!AllTexts(c.reminders.value) <==> UpdateOne(c, lines).error == Unhashable)
    ensures NeedsCounts(c) && c.ability.Some? && AllTexts(c.reminders.value) ==>
              (UpdateOne(c, lines).Err? <==> Rebuild(SortedUnique(TextsOf(c.reminders.value)), lines).Err?)
    ensures UpdateOne(c, lines).Ok? ==> UpdatedFrom(c, UpdateOne(c, lines).value.character)
    ensures !NeedsCounts(c) ==> UpdateOne(c, lines) == Ok(Updated(c, lines))
  {
    if NeedsCounts(c) && c.ability.Some? && AllTexts(c.reminders.value) {
      var given := TextsOf(c.reminders.value);
      var texts := SortedUnique(given);
      RebuildFails(texts, lines);
      if Rebuild(texts, lines).Ok? {
        SortedUniqueSpec(given);
        RebuildSorted(texts, lines);
        var entries := Rebuild(texts, lines).value.entries;
        assert forall k :: 0 <= k < |entries| ==> entries[k].text in texts;
        assert CountedFrom(entries, given);
      }
    }
  }

  /** All records after the update and the lines not yet read. */
  datatype UpdatedAll = UpdatedAll(characters: seq<Character>, rest: seq<string>)

  /** Update the records in order, each reading its answers after the previous one's. */
  function UpdateAll(data: seq<Character>, lines: seq<string>): Result<UpdatedAll, Failure>
    decreases |data|
  {
    if data == [] then Ok(UpdatedAll([], lines))
    else
      match UpdateOne(data[0], lines)
      case Err(e) => Err(e)
      case Ok(u) =>
        match UpdateAll(data[1..], u.rest)
        case Err(e) => Err(e)
        case Ok(t) => Ok(UpdatedAll([u.character] + t.characters, t.rest))
  }

  /** Every record is updated in place: the list keeps its length and order, and each record
      relates to its old form as `UpdatedFrom` says. */
  lemma {:induction false} UpdateAllSpec(data: seq<Character>, lines: seq<string>)
    requires UpdateAll(data, lines).Ok?
    ensures |UpdateAll(data, lines).value.characters| == |data|
    ensures forall k :: 0 <= k < |data| ==> UpdatedFrom(data[k], UpdateAll(data, lines).value.characters[k])
    decreases |data|
  {
    if data != [] {
      var u := UpdateOne(data[0], lines).value;
      UpdateOneSpec(data[0], lines);
      UpdateAllSpec(data[1..], u.rest);
      var t := UpdateAll(data[1..], u.rest).value;
      var out := UpdateAll(data, lines).value.characters;
      assert out == [u.character] + t.characters;
      forall k | 0 <= k < |data|
        ensures UpdatedFrom(data[k], out[k])
      {
        if k > 0 {
          assert data[k] == data[1..][k - 1];
        }
      }
    }
  }

  /** The update fails only when the typed input runs out or an asked-about record lacks its
      ability or holds counted entries. */
  lemma {:induction false} UpdateAllFails(data: seq<Character>, lines: seq<string>)
    requires UpdateAll(data, lines).Err?
    ensures UpdateAll(data, lines).error == EndOfInput
            || (exists k :: 0 <= k < |data| && NeedsCounts(data[k]) && data[k].ability.None?
                  && UpdateAll(data, lines).error == KeyError)
            || (exists k :: 0 <= k < |data| && NeedsCounts(data[k]) && !AllTexts(data[k].reminders.value)
                  && UpdateAll(data, lines).error == Unhashable)
    decreases |data|
  {
    UpdateOneSpec(data[0], lines);
    if UpdateOne(data[0], lines).Err? {
      if data[0].ability.Some? && AllTexts(data[0].reminders.value) {
        RebuildFails(SortedUnique(TextsOf(data[0].reminders.value)), lines);
      }
    } else {
      var u := UpdateOne(data[0], lines).value;
      UpdateAllFails(data[1..], u.rest);
      assert UpdateAll(data, lines).error == UpdateAll(data[1..], u.rest).error;
      if UpdateAll(data, lines).error != EndOfInput {
        var k :| 0 <= k < |data| - 1 && NeedsCounts(data[1..][k])
                 && (data[1..][k].ability.None? || !AllTexts(data[1..][k].reminders.value));
        assert data[1..][k] == data[k + 1];
      }
    }
  }

  /** The script end to end, without the files: merge the helper records, then update every
      record from the typed lines. */
  method UpdateReminderCounts(data: seq<Character>, lines: seq<string>) returns (r: Result<seq<Character>, Failure>)
    requires NoSharedMerge(data)
    ensures CombineFails(data) ==> r == Err(KeyError)
    ensures !CombineFails(data) ==> (r.Err? <==> UpdateAll(Combined(data), lines).Err?)
    ensures r.Ok? ==> |r.value| == |data|
    ensures r.Ok? ==> forall k :: 0 <= k < |data| ==> UpdatedFrom(Combined(data)[k], r.value[k])
  {
    var combined := Combine(data);
    if combined.Err? {
      return Err(combined.error);
    }
    assert combined.value == Combined(data);
    match UpdateAll(combined.value, lines)
    case Err(e) =>
      r := Err(e);
    case Ok(u) =>
      UpdateAllSpec(combined.value, lines);
      r := Ok(u.characters);
  }
}

=== FILE: sheets.dfy ===
/** Shelf placement shared by both print-sheet packers: a cursor that walks a page left to
    right, row by row, recording where each square token image is pasted. */
module Sheets {

  datatype Kind = Character | Reminder

  /** One token image to paste: its class, where it comes from, and its side in pixels. */
  datatype Token<P> = Token(kind: Kind, path: P, size: nat)

  /** A paste of `token` with its top-left corner at (`x`, `y`). */
  datatype Placement<P> = Placement(token: Token<P>, x: int, y: int)

  /** The page: everything is drawn inside the square band `margin` pixels in from each edge. */
  datatype Geometry = Geometry(margin: int, printableWidth: int, printableHeight: int)

  function Right(g: Geometry): int {
    g.margin + g.printableWidth
  }

  function Bottom(g: Geometry): int {
    g.margin + g.printableHeight
  }

  /** The pasted square lies inside the printable rectangle. */
  predicate Inside<P>(g: Geometry, p: Placement<P>) {
    && g.margin <= p.x
    && g.margin <= p.y
    && p.x + p.token.size <= Right(g)
    && p.y + p.token.size <= Bottom(g)
  }

  /** An earlier placement `p` ends at least `pad` pixels before a later one `q` starts,
      horizontally (same row) or vertically (earlier row). */
  predicate Separated<P>(p: Placement<P>, q: Placement<P>, pad: nat) {
    p.x + p.token.size + pad <= q.x || p.y + p.token.size + pad <= q.y
  }

  /** The two pasted squares share interior pixels. */
  predicate Overlap<P>(p: Placement<P>, q: Placement<P>) {
    && p.x < q.x + q.token.size
    && q.x < p.x + p.token.size
    && p.y < q.y + q.token.size
    && q.y < p.y + p.token.size
  }

  /** Every placement is inside the page and every later one is separated from every earlier one. */
  predicate WellPacked<P>(g: Geometry, sheet: seq<Placement<P>>, pad: nat) {
    && (forall i :: 0 <= i < |sheet| ==> Inside(g, sheet[i]))
    && (forall i, j :: 0 <= i < j < |sheet| ==> Separated(sheet[i], sheet[j], pad))
  }

  predicate NoOverlap<P>(sheet: seq<Placement<P>>) {
    forall i, j :: 0 <= i < |sheet| && 0 <= j < |sheet| && i != j ==> !Overlap(sheet[i], sheet[j])
  }

  /** Separation in placement order rules out overlap in either order. */
  lemma WellPackedNoOverlap<P>(g: Geometry, sheet: seq<Placement<P>>, pad: nat)
    requires WellPacked(g, sheet, pad)
    ensures NoOverlap(sheet)
  {
    forall i, j | 0 <= i < |sheet| && 0 <= j < |sheet| && i != j
      ensures !Overlap(sheet[i], sheet[j])
    {
      if i < j {
        assert Separated(sheet[i], sheet[j], pad);
      } else {
        assert Separated(sheet[j], sheet[i], pad);
      }
    }
  }

  /** Page geometry, the two token diameters and the gap after each paste, all in pixels. */
  datatype Config = Config(geometry: Geometry, characterSize: nat, reminderSize: nat, padding: nat)

  function SizeOf(cfg: Config, k: Kind): nat {
    match k
    case Character => cfg.characterSize
    case Reminder => cfg.reminderSize
  }

  /** Both token sizes fit on an empty page. Without this a token taller than the page is
      deferred to a fresh sheet forever and the packing loop never ends. */
  predicate SizesFit(cfg: Config) {
    && cfg.characterSize <= cfg.geometry.printableWidth
    && cfg.characterSize <= cfg.geometry.printableHeight
    && cfg.reminderSize <= cfg.geometry.printableWidth
    && cfg.reminderSize <= cfg.geometry.printableHeight
  }

  /** Every placement has the diameter of its class. */
  ghost predicate Sized<P>(cfg: Config, ps: seq<Placement<P>>) {
    forall i :: 0 <= i < |ps| ==> ps[i].token.size == SizeOf(cfg, ps[i].token.kind)
  }

  /** Every saved sheet is non-empty and well packed. */
  ghost predicate SavedWellPacked<P>(cfg: Config, closed: seq<seq<Placement<P>>>) {
    forall i :: 0 <= i < |closed| ==> closed[i] != [] && WellPacked(cfg.geometry, closed[i], cfg.padding)
  }

  /** The packing position: next paste at (`x`, `y`), the tallest extent of the current row so
      far, and what has been pasted on the current sheet. */
  datatype Cursor<P> = Cursor(x: int, y: int, rowHeight: int, sheet: seq<Placement<P>>)

  function Fresh<P>(g: Geometry): Cursor<P> {
    Cursor(g.margin, g.margin, 0, [])
  }

  /** Every placement of the current sheet lies in an earlier row (ending `pad` above `y`) or in
      the current row (at height `y`, ending `pad` before `x`, within `rowHeight`). */
  predicate RowsBehind<P>(c: Cursor<P>, pad: nat) {
    forall i :: 0 <= i < |c.sheet| ==>
      var p := c.sheet[i];
      (p.y == c.y && p.x + p.token.size + pad <= c.x && p.token.size + pad <= c.rowHeight)
      || p.y + p.token.size + pad <= c.y
  }

  /** The invariant of the shelf cursor. */
  predicate CursorInv<P>(g: Geometry, c: Cursor<P>, pad: nat) {
    && g.margin <= c.x
    && g.margin <= c.y
    && 0 <= c.rowHeight
    && RowsBehind(c, pad)
    && WellPacked(g, c.sheet, pad)
    && (c.sheet == [] ==> c.x == g.margin && c.y == g.margin && c.rowHeight == 0)
  }

  lemma FreshInv<P>(g: Geometry, pad: nat)
    ensures CursorInv(g, Fresh<P>(g), pad)
  {
  }

  // ---------------------------------------------------------------------------------------
  // The shelf rule as cursor arithmetic
  // ---------------------------------------------------------------------------------------

  /** Back to the left margin, down by the row height, with an empty row. */
  function NextRow<P>(g: Geometry, c: Cursor<P>): Cursor<P> {
    Cursor(g.margin, c.y + c.rowHeight, 0, c.sheet)
  }

  /** The cursor once the row check for a token of side `size` is done: on the next row when
      the token would cross the right printable edge, otherwise where it was. */
  function RowFor<P>(g: Geometry, c: Cursor<P>, size: nat): Cursor<P> {
    if c.x + size > Right(g) then NextRow(g, c) else c
  }

  /** `t` pasted with its top-left corner at the cursor; the next paste goes `pad` pixels past
      its right edge and the row becomes tall enough for it plus `pad`. */
  function Paste<P>(c: Cursor<P>, t: Token<P>, pad: nat): Cursor<P> {
    Cursor(c.x + t.size + pad, c.y, if c.rowHeight < t.size + pad then t.size + pad else c.rowHeight,
           c.sheet + [Placement(t, c.x, c.y)])
  }

  /** The tokens `ts` pasted one after another from the cursor `c` by the shelf rule: each is
      moved to the next row when it would cross the right edge, then pasted at the cursor. */
  function ShelveAll<P>(g: Geometry, c: Cursor<P>, ts: seq<Token<P>>, pad: nat): Cursor<P>
    decreases |ts|
  {
    if ts == [] then c
    else
      var t := ts[|ts| - 1];
      Paste(RowFor(g, ShelveAll(g, c, ts[..|ts| - 1], pad), t.size), t, pad)
  }

  lemma ShelveAllSnoc<P>(g: Geometry, c: Cursor<P>, ts: seq<Token<P>>, t: Token<P>, pad: nat)
    ensures ShelveAll(g, c, ts + [t], pad) == Paste(RowFor(g, ShelveAll(g, c, ts, pad), t.size), t, pad)
  {
    assert (ts + [t])[..|ts|] == ts;
  }

  /** Shelving keeps what the sheet held and adds one placement per token, in token order. */
  lemma {:induction false} ShelveAllSheet<P>(g: Geometry, c: Cursor<P>, ts: seq<Token<P>>, pad: nat)
    ensures |ShelveAll(g, c, ts, pad).sheet| == |c.sheet| + |ts|
    ensures ShelveAll(g, c, ts, pad).sheet[..|c.sheet|] == c.sheet
    ensures TokensOf(ShelveAll(g, c, ts, pad).sheet[|c.sheet|..]) == ts
    decreases |ts|
  {
    if ts != [] {
      var front := ts[..|ts| - 1];
      var t := ts[|ts| - 1];
      ShelveAllSheet(g, c, front, pad);
      var before := ShelveAll(g, c, front, pad).sheet;
      var after := ShelveAll(g, c, ts, pad).sheet;
      assert after == before + [after[|after| - 1]] && after[|after| - 1].token == t;
      assert after[|c.sheet|..] == before[|c.sheet|..] + [after[|after| - 1]];
      assert ts == front + [t];
    }
  }

  /** On a fresh sheet a token that fits the printable area is pasted at the top-left margin. */
  lemma FreshFirst<P>(g: Geometry, t: Token<P>, pad: nat)
    requires t.size <= g.printableWidth && t.size <= g.printableHeight
    ensures RowFor(g, Fresh<P>(g), t.size) == Fresh(g)
    ensures Fresh<P>(g).y + t.size <= Bottom(g)
    ensures Paste(Fresh<P>(g), t, pad).sheet == [Placement(t, g.margin, g.margin)]
  {
  }

  /** Wrap to a new row: back to the left margin, down by the row height (source lines 111-114
      of the priority packer, 84-87 of the in-order packer). */
  function NewRow<P>(g: Geometry, c: Cursor<P>, pad: nat): (c': Cursor<P>)
    requires CursorInv(g, c, pad)
    ensures CursorInv(g, c', pad)
    ensures c'.sheet == c.sheet && c'.x == g.margin && c'.y >= c.y
    ensures c'.y == c.y + c.rowHeight && c'.rowHeight == 0
  {
    NextRow(g, c)
  }

  /** Paste `t` at the cursor and advance it by the token's size plus `pad`; the row grows to
      fit it. */
  function Place<P>(g: Geometry, c: Cursor<P>, t: Token<P>, pad: nat): (c': Cursor<P>)
    requires CursorInv(g, c, pad)
    requires c.x + t.size <= Right(g) && c.y + t.size <= Bottom(g)
    ensures CursorInv(g, c', pad)
    ensures c'.sheet == c.sheet + [Placement(t, c.x, c.y)]
    ensures c'.x == c.x + t.size + pad && c'.y == c.y
    ensures c'.rowHeight == if c.rowHeight < t.size + pad then t.size + pad else c.rowHeight
  {
    var p := Placement(t, c.x, c.y);
    assert forall i :: 0 <= i < |c.sheet| ==> Separated(c.sheet[i], p, pad);
    Paste(c, t, pad)
  }

  /** All placements of a list of sheets, sheet after sheet. */
  function Flatten<P>(sheets: seq<seq<Placement<P>>>): seq<Placement<P>>
    decreases |sheets|
  {
    if sheets == [] then [] else Flatten(sheets[..|sheets| - 1]) + sheets[|sheets| - 1]
  }

  lemma FlattenSnoc<P>(sheets: seq<seq<Placement<P>>>, s: seq<Placement<P>>)
    ensures Flatten(sheets + [s]) == Flatten(sheets) + s
  {
    assert (sheets + [s])[..|sheets|] == sheets;
  }

  /** The tokens pasted, in paste order. */
  function TokensOf<P>(ps: seq<Placement<P>>): (ts: seq<Token<P>>)
    ensures |ts| == |ps| && forall i :: 0 <= i < |ps| ==> ts[i] == ps[i].token
  {
    seq(|ps|, i requires 0 <= i < |ps| => ps[i].token)
  }

  /** The sources of the tokens of class `k`, in paste order. */
  function PathsOf<P>(ps: seq<Placement<P>>, k: Kind): seq<P>
    decreases |ps|
  {
    if ps == [] then []
    else PathsOf(ps[..|ps| - 1], k) + (if ps[|ps| - 1].token.kind == k then [ps[|ps| - 1].token.path] else [])
  }

  lemma {:induction false} PathsOfAppend<P>(a: seq<Placement<P>>, b: seq<Placement<P>>, k: Kind)
    ensures PathsOf(a + b, k) == PathsOf(a, k) + PathsOf(b, k)
    decreases |b|
  {
    if b == [] {
      assert a + b == a;
    } else {
      var b' := b[..|b| - 1];
      assert (a + b)[..|a + b| - 1] == a + b';
      assert (a + b)[|a + b| - 1] == b[|b| - 1];
      PathsOfAppend(a, b', k);
    }
  }

  lemma PathsOfSnoc<P>(ps: seq<Placement<P>>, p: Placement<P>, k: Kind)
    ensures PathsOf(ps + [p], k) == PathsOf(ps, k) + (if p.token.kind == k then [p.token.path] else [])
  {
    assert (ps + [p])[..|ps|] == ps;
  }

  /** Each placement is of one class or the other. */
  lemma {:induction false} PathsOfPartition<P>(ps: seq<Placement<P>>)
    ensures |PathsOf(ps, Character)| + |PathsOf(ps, Reminder)| == |ps|
    decreases |ps|
  {
    if ps != [] {
      PathsOfPartition(ps[..|ps| - 1]);
    }
  }

  /** Python's list in reverse: the order in which repeated `pop()` yields it. */
  function Reverse<T>(s: seq<T>): (r: seq<T>)
    ensures |r| == |s|
    decreases |s|
  {
    if s == [] then [] else Reverse(s[1..]) + [s[0]]
  }

  lemma {:induction false} ReverseAppend<T>(a: seq<T>, b: seq<T>)
    ensures Reverse(a + b) == Reverse(b) + Reverse(a)
    decreases |a|
  {
    if a == [] {
      assert a + b == b;
    } else {
      assert (a + b)[1..] == a[1..] + b;
      ReverseAppend(a[1..], b);
    }
  }

  /** Popping the last element of `s[..n]` extends the reversed suffix by `s[n-1]`. */
  lemma ReversePop<T>(s: seq<T>, n: nat)
    requires 0 < n <= |s|
    ensures Reverse(s[n - 1..]) == Reverse(s[n..]) + [s[n - 1]]
  {
    assert s[n - 1..][1..] == s[n..];
  }

  /** Reversing element by element: the `i`-th of the reverse is the `i`-th from the end. */
  lemma {:induction false} ReverseIndex<T>(s: seq<T>)
    ensures forall i :: 0 <= i < |s| ==> Reverse(s)[i] == s[|s| - 1 - i]
    decreases |s|
  {
    if s != [] {
      ReverseIndex(s[1..]);
    }
  }

  lemma SavedSheet<P>(cfg: Config, closed: seq<seq<Placement<P>>>, sheet: seq<Placement<P>>)
    requires SavedWellPacked(cfg, closed)
    requires sheet != [] && WellPacked(cfg.geometry, sheet, cfg.padding)
    ensures SavedWellPacked(cfg, closed + [sheet])
  {
  }

  lemma SheetsNoOverlap<P>(cfg: Config, sheets: seq<seq<Placement<P>>>)
    requires SavedWellPacked(cfg, sheets)
    ensures forall i :: 0 <= i < |sheets| ==> NoOverlap(sheets[i])
  {
    forall i | 0 <= i < |sheets|
      ensures NoOverlap(sheets[i])
    {
      WellPackedNoOverlap(cfg.geometry, sheets[i], cfg.padding);
    }
  }

  /** Non-empty sheets hold at least one placement between them. */
  lemma FlattenNonEmpty<P>(cfg: Config, sheets: seq<seq<Placement<P>>>)
    requires SavedWellPacked(cfg, sheets)
    ensures sheets != [] ==> |Flatten(sheets)| > 0
  {
  }

  lemma SizedAppend<P>(cfg: Config, a: seq<Placement<P>>, b: seq<Placement<P>>)
    requires Sized(cfg, a) && Sized(cfg, b)
    ensures Sized(cfg, a + b)
  {
    assert forall i :: |a| <= i < |a + b| ==> (a + b)[i] == b[i - |a|];
  }
}

=== FILE: strings.dfy ===
/** The parts of Python's `str` that the generator relies on, over `seq<char>`. */
module Strings {

  /** Python's `str.isspace` on ASCII: tab, line feed, vertical tab, form feed,
      carriage return, the separators 0x1C-0x1F and space. */
  predicate IsSpace(c: char) {
    var n := c as int;
    (9 <= n <= 13) || (28 <= n <= 32)
  }

  /** One element of `str.split()`: non-empty and free of white space. */
  predicate IsWord(w: string) {
    |w| > 0 && forall i :: 0 <= i < |w| ==> !IsSpace(w[i])
  }

  predicate AllWords(ws: seq<string>) {
    forall k :: 0 <= k < |ws| ==> IsWord(ws[k])
  }

  /** Where the run of non-white-space characters that ends at `i` begins. */
  function WordStart(s: string, i: nat): (k: nat)
    requires i < |s| && !IsSpace(s[i])
    ensures k <= i
    ensures k == 0 || IsSpace(s[k - 1])
    ensures forall j :: k <= j <= i ==> !IsSpace(s[j])
    decreases i
  {
    if i == 0 || IsSpace(s[i - 1]) then i else WordStart(s, i - 1)
  }

  /** `s.split()` with no separator: the maximal runs of non-white-space characters, in order. */
  function Split(s: string): (ws: seq<string>)
    ensures AllWords(ws)
    decreases |s|
  {
    if s == [] then []
    else if IsSpace(s[|s| - 1]) then Split(s[..|s| - 1])
    else
      var k := WordStart(s, |s| - 1);
      Split(s[..k]) + [s[k..]]
  }

  /** `" ".join(ws)`. */
  function JoinWords(ws: seq<string>): string
    decreases |ws|
  {
    if ws == [] then ""
    else if |ws| == 1 then ws[0]
    else JoinWords(ws[..|ws| - 1]) + " " + ws[|ws| - 1]
  }

  lemma {:induction false} WordStartAt(s: string, i: nat, lo: nat)
    requires lo <= i < |s|
    requires lo == 0 || IsSpace(s[lo - 1])
    requires forall j :: lo <= j <= i ==> !IsSpace(s[j])
    ensures WordStart(s, i) == lo
    decreases i - lo
  {
    if i > lo {
      WordStartAt(s, i - 1, lo);
    }
  }

  /** A single word splits to itself. */
  lemma SplitWord(w: string)
    requires IsWord(w)
    ensures Split(w) == [w]
  {
    WordStartAt(w, |w| - 1, 0);
    assert w[..0] == [];
    assert w[0..] == w;
  }

  /** Appending a space and a word appends exactly that word to the split. */
  lemma SplitAppendWord(a: string, w: string)
    requires IsWord(w)
    ensures Split(a + " " + w) == Split(a) + [w]
  {
    var s := a + " " + w;
    assert s[|a|] == ' ';
    forall j | |a| + 1 <= j <= |s| - 1
      ensures !IsSpace(s[j])
    {
      assert s[j] == w[j - |a| - 1];
    }
    WordStartAt(s, |s| - 1, |a| + 1);
    assert s[..|a| + 1] == a + " ";
    assert (a + " ")[..|a|] == a;
    assert s[|a| + 1..] == w;
  }

  /** Splitting undoes joining: `" ".join(ws).split() == ws` for words. */
  lemma {:induction false} SplitJoin(ws: seq<string>)
    requires AllWords(ws)
    ensures Split(JoinWords(ws)) == ws
    decreases |ws|
  {
    if |ws| == 1 {
      SplitWord(ws[0]);
    } else if |ws| > 1 {
      var n := |ws| - 1;
      var front := ws[..n];
      assert AllWords(front) by {
        assert forall k :: 0 <= k < n ==> front[k] == ws[k];
      }
      assert IsWord(ws[n]);
      SplitJoin(front);
      assert JoinWords(ws) == JoinWords(front) + " " + ws[n];
      SplitAppendWord(JoinWords(front), ws[n]);
      assert ws == front + [ws[n]];
    }
  }

  function LowerChar(c: char): char {
    if 'A' <= c <= 'Z' then (c as int + 32) as char else c
  }

  function UpperChar(c: char): char {
    if 'a' <= c <= 'z' then (c as int - 32) as char else c
  }

  /** `s.lower()` on ASCII letters. */
  function Lower(s: string): (r: string)
    ensures |r| == |s|
    ensures forall i :: 0 <= i < |r| ==> !('A' <= r[i] <= 'Z')
  {
    seq(|s|, i requires 0 <= i < |s| => LowerChar(s[i]))
  }

  /** `s.upper()` on ASCII letters. */
  function Upper(s: string): (r: string)
    ensures |r| == |s|
    ensures forall i :: 0 <= i < |r| ==> !('a' <= r[i] <= 'z')
  {
    seq(|s|, i requires 0 <= i < |s| => UpperChar(s[i]))
  }

  /** `pat in s`. */
  predicate Contains(s: string, pat: string)
    decreases |s|
  {
    |pat| <= |s| && (s[..|pat|] == pat || (|s| > 0 && Contains(s[1..], pat)))
  }

  /** `s.replace(pat, rep)`: every non-overlapping occurrence, scanning left to right. */
  function ReplaceAll(s: string, pat: string, rep: string): (r: string)
    requires |pat| > 0
    ensures !Contains(s, pat) ==> r == s
    ensures |rep| <= |pat| ==> |r| <= |s|
    ensures |rep| < |pat| && Contains(s, pat) ==> |r| < |s|
    ensures |rep| == |pat| ==> |r| == |s|
    decreases |s|
  {
    if |s| < |pat| then s
    else if s[..|pat|] == pat then rep + ReplaceAll(s[|pat|..], pat, rep)
    else [s[0]] + ReplaceAll(s[1..], pat, rep)
  }

  /** Replacing one character by another acts position by position: the length is kept, and
      each occurrence of `c` becomes `d` while every other character stays. */
  lemma {:induction false} ReplaceCharPointwise(s: string, c: char, d: char)
    ensures |ReplaceAll(s, [c], [d])| == |s|
    ensures forall i :: 0 <= i < |s| ==> ReplaceAll(s, [c], [d])[i] == if s[i] == c then d else s[i]
    decreases |s|
  {
    if |s| >= 1 {
      ReplaceCharPointwise(s[1..], c, d);
      assert s[..1] == [c] <==> s[0] == c;
    }
  }

  predicate IsDigit(c: char) {
    '0' <= c <= '9'
  }

  predicate AllDigits(s: string) {
    forall i :: 0 <= i < |s| ==> IsDigit(s[i])
  }

  function DigitChar(d: nat): char
    requires d < 10
  {
    ('0' as int + d) as char
  }

  /** `str(n)` for a non-negative integer: decimal digits without leading zeros. */
  function NatToString(n: nat): (r: string)
    ensures |r| > 0 && AllDigits(r)
    decreases n
  {
    if n < 10 then [DigitChar(n)] else NatToString(n / 10) + [DigitChar(n % 10)]
  }

  /** `int(s)` for a string of decimal digits. */
  function ParseNat(s: string): nat
    requires AllDigits(s)
    decreases |s|
  {
    if s == [] then 0 else ParseNat(s[..|s| - 1]) * 10 + (s[|s| - 1] as int - '0' as int)
  }

  /** Decimal rendering round-trips through parsing. */
  lemma {:induction false} ParseNatToString(n: nat)
    ensures ParseNat(NatToString(n)) == n
    decreases n
  {
    if n >= 10 {
      ParseNatToString(n / 10);
      var s := NatToString(n);
      assert s[..|s| - 1] == NatToString(n / 10);
    }
  }

  /** Different numbers render differently. */
  lemma NatToStringInjective(a: nat, b: nat)
    ensures NatToString(a) == NatToString(b) ==> a == b
  {
    ParseNatToString(a);
    ParseNatToString(b);
  }

  /** The index of the first non-white-space character, or `|s|`. */
  function StripStart(s: string): (i: nat)
    ensures i <= |s|
    ensures forall k :: 0 <= k < i ==> IsSpace(s[k])
    ensures i == |s| || !IsSpace(s[i])
    decreases |s|
  {
    if s == [] || !IsSpace(s[0]) then 0 else 1 + StripStart(s[1..])
  }

  /** One past the last non-white-space character at or after `i`, or `i`. */
  function StripEnd(s: string, i: nat): (j: nat)
    requires i <= |s|
    ensures i <= j <= |s|
    ensures forall k :: j <= k < |s| ==> IsSpace(s[k])
    ensures j == i || !IsSpace(s[j - 1])
    decreases |s|
  {
    if |s| == i || !IsSpace(s[|s| - 1]) then |s| else StripEnd(s[..|s| - 1], i)
  }

  /** `s.strip()`: the longest slice of `s` that neither starts nor ends with white space. */
  function Strip(s: string): (r: string)
    ensures |r| <= |s|
    ensures r == [] || (!IsSpace(r[0]) && !IsSpace(r[|r| - 1]))
    ensures r == [] <==> forall k :: 0 <= k < |s| ==> IsSpace(s[k])
  {
    var i := StripStart(s);
    var j := StripEnd(s, i);
    assert j > i ==> s[i..j][0] == s[i];
    s[i..j]
  }

  /** What `strip` cuts off is white space only: the stripped text is a slice of `s` with
      nothing but white space before and after it. With `Strip`'s own contract (it neither
      starts nor ends with white space) this fixes the stripped text. */
  lemma StripSlice(s: string)
    ensures exists i, j :: 0 <= i <= j <= |s| && Strip(s) == s[i..j]
              && (forall k :: 0 <= k < i ==> IsSpace(s[k])) && (forall k :: j <= k < |s| ==> IsSpace(s[k]))
  {
    var i := StripStart(s);
    var j := StripEnd(s, i);
    assert Strip(s) == s[i..j];
  }

  /** What Python's `int(s)` accepts once `s` is stripped: an optional sign and at least one
      decimal digit (digit-group underscores are not modelled). */
  predicate IsIntLiteral(s: string) {
    if |s| > 0 && (s[0] == '+' || s[0] == '-') then |s| > 1 && AllDigits(s[1..])
    else |s| > 0 && AllDigits(s)
  }

  /** The value of an integer literal. */
  function IntValue(s: string): (n: int)
    requires IsIntLiteral(s)
    ensures s[0] == '-' ==> n <= 0
    ensures s[0] != '-' ==> n >= 0
  {
    if s[0] == '-' then -(ParseNat(s[1..]) as int)
    else if s[0] == '+' then ParseNat(s[1..])
    else ParseNat(s)
  }

  /** Python's `a < b` on strings: lexicographic by code point, a proper prefix being smaller. */
  predicate LexLess(a: string, b: string)
    decreases |a|
  {
    if |a| == 0 then |b| > 0
    else if |b| == 0 then false
    else if a[0] != b[0] then a[0] < b[0]
    else LexLess(a[1..], b[1..])
  }

  lemma {:induction false} LexLessIrreflexive(a: string)
    ensures !LexLess(a, a)
    decreases |a|
  {
    if |a| > 0 {
      LexLessIrreflexive(a[1..]);
    }
  }

  lemma {:induction false} LexLessTransitive(a: string, b: string, c: string)
    requires LexLess(a, b) && LexLess(b, c)
    ensures LexLess(a, c)
    decreases |a|
  {
    if |a| > 0 && |b| > 0 && |c| > 0 && a[0] == b[0] && b[0] == c[0] {
      LexLessTransitive(a[1..], b[1..], c[1..]);
    }
  }

  lemma {:induction false} LexLessTotal(a: string, b: string)
    requires a != b
    ensures LexLess(a, b) || LexLess(b, a)
    decreases |a|
  {
    if |a| > 0 && |b| > 0 && a[0] == b[0] {
      assert a == [a[0]] + a[1..];
      assert b == [b[0]] + b[1..];
      LexLessTotal(a[1..], b[1..]);
    }
  }

  /** Sorted ascending with no repetition (`sorted(set(...))`). */
  predicate StrictlySorted(s: seq<string>) {
    forall i, j :: 0 <= i < j < |s| ==> LexLess(s[i], s[j])
  }
}

=== FILE: text_layout.dfy ===
/** Text layout decisions of create_tokens.py: how wide a line of ability text may be inside the
    round token, how words are wrapped greedily into lines, which font size the ability text
    gets and which size the character name gets. Font metrics come from the font renderer and
    are parameters here: `length(size, s)` is the drawn width of `s` at font size `size`. */
module TextLayout {
  import opened Wrappers
  import opened Strings

  // ---------------------------------------------------------------------------------------
  // The text circle (`get_max_line_width`, source lines 145-171)
  // ---------------------------------------------------------------------------------------

  /** `r` is a square root of `x`; stands for Python's `x ** 0.5` on a non-negative `x`. */
  predicate IsSqrtOf(r: real, x: real) {
    0.0 <= r && r * r == x
  }

  function Abs(x: real): real {
    if x < 0.0 then -x else x
  }

  function RealMax(a: real, b: real): real {
    if a < b then b else a
  }

  /** The chord of a circle of radius `radius` at distance `dist` from its centre line, less
      `margin`, never negative; 0 once `dist` reaches the radius. */
  function ChordWidth(dist: real, radius: real, margin: real, sqrt: real -> real): real {
    if dist >= radius then 0.0
    else RealMax(0.0, 2.0 * sqrt(radius * radius - dist * dist) - margin)
  }

  /** The width available to a line whose top is at `y`: the chord, at the line's bottom edge,
      of the text circle, whose diameter is 82% of the image width `w` and whose centre is at
      half the image height `h`. */
  function MaxLineWidth(y: real, lineHeight: real, w: real, h: real, margin: real, sqrt: real -> real): real {
    ChordWidth(Abs(y + lineHeight - h / 2.0), w * 0.82 / 2.0, margin, sqrt)
  }

  lemma MulPos(x: real, y: real)
    requires 0.0 < x && 0.0 < y
    ensures 0.0 < x * y
  {
  }

  lemma SquareLess(a: real, b: real)
    requires 0.0 <= b < a
    ensures b * b < a * a
  {
    MulPos(a - b, a + b);
    assert a * a - b * b == (a - b) * (a + b);
  }

  /** What is left under the root lies between 0 and the squared radius. */
  lemma RadicandRange(dist: real, radius: real)
    requires 0.0 <= dist < radius
    ensures 0.0 <= radius * radius - dist * dist <= radius * radius
  {
    SquareLess(radius, dist);
    if dist > 0.0 {
      SquareLess(dist, 0.0);
    }
  }

  /** A square root of at most `radius * radius` is at most `radius`. */
  lemma RootBelow(half: real, x: real, radius: real)
    requires IsSqrtOf(half, x) && 0.0 <= radius && x <= radius * radius
    ensures half <= radius
  {
    if half > radius {
      SquareLess(half, radius);
    }
  }

  /** A chord is never negative and never longer than the diameter. */
  lemma ChordWidthBounds(dist: real, radius: real, margin: real, sqrt: real -> real)
    requires 0.0 <= dist && 0.0 <= radius && 0.0 <= margin
    requires forall x :: 0.0 <= x ==> IsSqrtOf(sqrt(x), x)
    ensures 0.0 <= ChordWidth(dist, radius, margin, sqrt) <= 2.0 * radius
  {
    if dist < radius {
      var x := radius * radius - dist * dist;
      RadicandRange(dist, radius);
      assert IsSqrtOf(sqrt(x), x);
      RootBelow(sqrt(x), x, radius);
    }
  }

  /** The width is never negative and, with a correct square root and a non-negative margin,
      never more than the circle's diameter; it is 0 outside the circle. */
  lemma MaxLineWidthBounds(y: real, lineHeight: real, w: real, h: real, margin: real, sqrt: real -> real)
    requires 0.0 <= w && 0.0 <= margin
    requires forall x :: 0.0 <= x ==> IsSqrtOf(sqrt(x), x)
    ensures 0.0 <= MaxLineWidth(y, lineHeight, w, h, margin, sqrt) <= w * 0.82
    ensures Abs(y + lineHeight - h / 2.0) >= w * 0.82 / 2.0 ==> MaxLineWidth(y, lineHeight, w, h, margin, sqrt) == 0.0
  {
    ChordWidthBounds(Abs(y + lineHeight - h / 2.0), w * 0.82 / 2.0, margin, sqrt);
  }

  /** Lines whose bottom edges are equally far above and below the centre get the same width. */
  lemma MaxLineWidthSymmetric(y1: real, y2: real, lineHeight: real, w: real, h: real, margin: real, sqrt: real -> real)
    requires (y1 + lineHeight) - h / 2.0 == h / 2.0 - (y2 + lineHeight)
    ensures MaxLineWidth(y1, lineHeight, w, h, margin, sqrt) == MaxLineWidth(y2, lineHeight, w, h, margin, sqrt)
  {
    assert Abs(y1 + lineHeight - h / 2.0) == Abs(y2 + lineHeight - h / 2.0);
  }

  // ---------------------------------------------------------------------------------------
  // Greedy word wrap (source lines 204-217 and 259-271)
  // ---------------------------------------------------------------------------------------

  /** `f"{current_line} {word}" if current_line else word`. */
  function Extend(line: string, word: string): string {
    if line == "" then word else line + " " + word
  }

  /** The words of a list of lines, in order. */
  function WordsOf(lines: seq<string>): seq<string>
    decreases |lines|
  {
    if lines == [] then [] else WordsOf(lines[..|lines| - 1]) + Split(lines[|lines| - 1])
  }

  /** The shape of a greedy wrap under the bound `bound(k)` for line `k`: a line of two or more
      words fits its bound, every line after the first holds a word, and a line was ended only
      because the next line's first word would not have fitted on it. */
  ghost predicate Wrapped(length: string -> real, bound: nat -> real, lines: seq<string>) {
    (forall k :: 0 <= k < |lines| ==> |Split(lines[k])| >= 2 ==> length(lines[k]) <= bound(k))
    && (forall k :: 1 <= k < |lines| ==> Split(lines[k]) != [])
    && (forall k :: 0 <= k < |lines| - 1 ==> length(Extend(lines[k], Split(lines[k + 1])[0])) > bound(k))
  }

  /** The loop's state between two words: the lines so far and the line being built. */
  ghost predicate WrapState(length: string -> real, bound: nat -> real, lines: seq<string>, cur: string) {
    Wrapped(length, bound, lines)
    && (cur != "" ==> Split(cur) != [])
    && (|Split(cur)| >= 2 ==> length(cur) <= bound(|lines|))
    && (lines != [] ==>
          Split(cur) != [] && length(Extend(lines[|lines| - 1], Split(cur)[0])) > bound(|lines| - 1))
  }

  /** The wrapping loop from a given state: a word joins the current line when the extended
      line fits the bound of the line's index, otherwise the current line is ended (even when
      empty) and the word starts the next one; a non-empty last line is kept. */
  function WrapFrom(words: seq<string>, length: string -> real, bound: nat -> real, lines: seq<string>, cur: string): seq<string>
    decreases |words|
  {
    if words == [] then (if cur != "" then lines + [cur] else lines)
    else if length(Extend(cur, words[0])) <= bound(|lines|) then
      WrapFrom(words[1..], length, bound, lines, Extend(cur, words[0]))
    else
      WrapFrom(words[1..], length, bound, lines + [cur], words[0])
  }

  lemma SplitExtend(cur: string, w: string)
    requires IsWord(w)
    ensures Split(Extend(cur, w)) == Split(cur) + [w]
  {
    if cur == "" {
      SplitWord(w);
    } else {
      SplitAppendWord(cur, w);
    }
  }

  lemma WordsOfSnoc(lines: seq<string>, l: string)
    ensures WordsOf(lines + [l]) == WordsOf(lines) + Split(l)
  {
    assert (lines + [l])[..|lines|] == lines;
  }

  /** Ending the current line keeps the loop state intact. */
  lemma EndLine(length: string -> real, bound: nat -> real, lines: seq<string>, cur: string, w: string)
    requires WrapState(length, bound, lines, cur) && IsWord(w)
    requires length(Extend(cur, w)) > bound(|lines|)
    ensures WrapState(length, bound, lines + [cur], w)
  {
    SplitWord(w);
    var ls := lines + [cur];
    forall k | 1 <= k < |ls|
      ensures Split(ls[k]) != []
    {
      if k < |lines| {
        assert ls[k] == lines[k];
      }
    }
    forall k | 0 <= k < |ls| - 1
      ensures length(Extend(ls[k], Split(ls[k + 1])[0])) > bound(k)
    {
      if k < |lines| - 1 {
        assert ls[k] == lines[k] && ls[k + 1] == lines[k + 1];
      }
    }
  }

  /** Adding a word that fits keeps the loop state intact. */
  lemma JoinWord(length: string -> real, bound: nat -> real, lines: seq<string>, cur: string, w: string)
    requires WrapState(length, bound, lines, cur) && IsWord(w)
    requires length(Extend(cur, w)) <= bound(|lines|)
    ensures WrapState(length, bound, lines, Extend(cur, w))
  {
    SplitExtend(cur, w);
  }

  /** The wrap gives back the words it was given, in order, by induction on the words still to
      place. */
  lemma {:induction false} WrapFromWords(words: seq<string>, length: string -> real, bound: nat -> real, lines: seq<string>, cur: string)
    requires AllWords(words)
    ensures WordsOf(WrapFrom(words, length, bound, lines, cur)) == WordsOf(lines) + Split(cur) + words
    decreases |words|
  {
    if words == [] {
      if cur != "" {
        WordsOfSnoc(lines, cur);
      } else {
        assert Split(cur) == [];
      }
    } else {
      var w := words[0];
      var rest := words[1..];
      assert IsWord(w) && AllWords(rest) by {
        assert forall k :: 0 <= k < |rest| ==> rest[k] == words[k + 1];
      }
      if length(Extend(cur, w)) <= bound(|lines|) {
        assert WrapFrom(words, length, bound, lines, cur) == WrapFrom(rest, length, bound, lines, Extend(cur, w));
        WrapFromWords(rest, length, bound, lines, Extend(cur, w));
        SplitExtend(cur, w);
        WordsRegroup(WordsOf(lines), Split(cur), words);
      } else {
        assert WrapFrom(words, length, bound, lines, cur) == WrapFrom(rest, length, bound, lines + [cur], w);
        WrapFromWords(rest, length, bound, lines + [cur], w);
        SplitWord(w);
        WordsOfSnoc(lines, cur);
        WordsRegroup(WordsOf(lines), Split(cur), words);
      }
    }
  }

  /** Moving the first word of `words` onto the line before it. */
  lemma WordsRegroup(before: seq<string>, line: seq<string>, words: seq<string>)
    requires words != []
    ensures before + (line + [words[0]]) + words[1..] == before + line + words
    ensures (before + line) + [words[0]] + words[1..] == before + line + words
  {
    assert words == [words[0]] + words[1..];
  }

  /** The wrap has the `Wrapped` shape, by induction on the words still to place. */
  lemma {:induction false} WrapFromShape(words: seq<string>, length: string -> real, bound: nat -> real, lines: seq<string>, cur: string)
    requires AllWords(words) && WrapState(length, bound, lines, cur)
    ensures Wrapped(length, bound, WrapFrom(words, length, bound, lines, cur))
    decreases |words|
  {
    var r := WrapFrom(words, length, bound, lines, cur);
    if words == [] {
      if cur != "" {
        assert r == lines + [cur];
        LastLine(length, bound, lines, cur);
      } else {
        assert r == lines;
      }
    } else {
      var w := words[0];
      var rest := words[1..];
      assert IsWord(w);
      assert AllWords(rest) by {
        assert forall k :: 0 <= k < |rest| ==> rest[k] == words[k + 1];
      }
      if length(Extend(cur, w)) <= bound(|lines|) {
        assert r == WrapFrom(rest, length, bound, lines, Extend(cur, w));
        JoinWord(length, bound, lines, cur, w);
        WrapFromShape(rest, length, bound, lines, Extend(cur, w));
      } else {
        assert r == WrapFrom(rest, length, bound, lines + [cur], w);
        EndLine(length, bound, lines, cur, w);
        WrapFromShape(rest, length, bound, lines + [cur], w);
      }
    }
  }

  /** Keeping the last, non-empty line ends the wrap in the `Wrapped` shape. */
  lemma LastLine(length: string -> real, bound: nat -> real, lines: seq<string>, cur: string)
    requires WrapState(length, bound, lines, cur) && cur != ""
    ensures Wrapped(length, bound, lines + [cur])
  {
    var ls := lines + [cur];
    forall k | 1 <= k < |ls|
      ensures Split(ls[k]) != []
    {
      if k < |lines| {
        assert ls[k] == lines[k];
      }
    }
    forall k | 0 <= k < |ls| - 1
      ensures length(Extend(ls[k], Split(ls[k + 1])[0])) > bound(k)
    {
      if k < |lines| - 1 {
        assert ls[k] == lines[k] && ls[k + 1] == lines[k + 1];
      }
    }
  }

  /** The greedy wrap of a word list (the loop of source lines 206-217 and 260-271). */
  function Wrap(words: seq<string>, length: string -> real, bound: nat -> real): seq<string> {
    WrapFrom(words, length, bound, [], "")
  }

  /** The wrap of the words of a text gives back exactly those words, in order, and its lines
      have the shape `Wrapped` describes. */
  lemma WrapShape(words: seq<string>, length: string -> real, bound: nat -> real)
    requires AllWords(words)
    ensures WordsOf(Wrap(words, length, bound)) == words
    ensures Wrapped(length, bound, Wrap(words, length, bound))
  {
    assert WrapState(length, bound, [], "") by {
      assert Split("") == [];
    }
    WrapFromShape(words, length, bound, [], "");
    WrapFromWords(words, length, bound, [], "");
  }

  // ---------------------------------------------------------------------------------------
  // The ability text (`_calculate_ability_text_layout`, source lines 174-226)
  // ---------------------------------------------------------------------------------------

  /** What the font renderer tells the layout: `length(size, s)` is the drawn width of `s` at
      font size `size`, `lineHeight(size)` the height of "Ay" at that size, and
      `maxLines(size)` the line budget `(100 - size) // 10.8`, which the source computes in
      floating point. */
  datatype Metrics = Metrics(length: (int, string) -> real, lineHeight: int -> real, maxLines: int -> int)

  /** The result: no ability text (the source's `(None, None, 50)`), or the wrapped lines and
      the font size they were wrapped at. */
  datatype AbilityLayout = NoAbility | Laid(lines: seq<string>, size: int)

  /** The font size the source returns alongside the layout. */
  function FontSizeOf(layout: AbilityLayout): int {
    match layout
    case NoAbility => 50
    case Laid(_, size) => size
  }

  /** The ability's first line starts 10% down the image. */
  const AbilityTop: real := 0.10

  /** The width bound of line `k` of the ability text at a line height: the text circle's chord
      at that line's bottom edge, the line's top being `k` line heights below the first. */
  function AbilityBound(w: real, h: real, lineHeight: real, sqrt: real -> real): nat -> real {
    k => MaxLineWidth(AbilityTop * h + k as real * lineHeight, lineHeight, w, h, 0.0, sqrt)
  }

  /** The ability text wrapped at font size `size`. */
  function AbilityWrap(ability: string, m: Metrics, w: real, h: real, sqrt: real -> real, size: int): seq<string> {
    Wrap(Split(ability), s => m.length(size, s), AbilityBound(w, h, m.lineHeight(size), sqrt))
  }

  /** At font size `size` the wrapped ability has more lines than that size allows. */
  predicate TooLong(ability: string, m: Metrics, w: real, h: real, sqrt: real -> real, size: int) {
    |AbilityWrap(ability, m, w, h, sqrt, size)| > m.maxLines(size)
  }

  /** The size search of the source: try 46, 44 and 42 in turn and keep the first size whose
      wrap has no more lines than that size's budget; when none does, keep 42 and its wrap. An
      empty ability gets no layout. */
  method CalculateAbilityLayout(ability: string, m: Metrics, w: real, h: real, sqrt: real -> real)
    returns (layout: AbilityLayout)
    ensures layout == NoAbility <==> ability == ""
    ensures layout.Laid? ==> layout.size == 46 || layout.size == 44 || layout.size == 42
    ensures layout.Laid? ==> layout.lines == AbilityWrap(ability, m, w, h, sqrt, layout.size)
    ensures layout.Laid? && layout.size != 42 ==> |layout.lines| <= m.maxLines(layout.size)
    ensures layout.Laid? && layout.size < 46 ==> TooLong(ability, m, w, h, sqrt, 46)
    ensures layout.Laid? && layout.size < 44 ==> TooLong(ability, m, w, h, sqrt, 44)
  {
    if ability == "" {
      return NoAbility;
    }
    var total := 1;
    var size := 48;
    var maxLines := 0;
    var lines: seq<string> := [];
    while total > maxLines
      invariant 42 <= size <= 48 && size % 2 == 0
      invariant size == 48 ==> total == 1 && maxLines == 0
      invariant size < 48 ==> lines == AbilityWrap(ability, m, w, h, sqrt, size)
      invariant size < 48 ==> total == |lines| && maxLines == m.maxLines(size)
      invariant size < 46 ==> TooLong(ability, m, w, h, sqrt, 46)
      invariant size < 44 ==> TooLong(ability, m, w, h, sqrt, 44)
      decreases size
    {
      size := size - 2;
      if size < 42 {
        size := 42;
        break;
      }
      maxLines := m.maxLines(size);
      lines := AbilityWrap(ability, m, w, h, sqrt, size);
      total := |lines|;
    }
    return Laid(lines, size);
  }

  /** Whatever size the search settles on, the wrap keeps every word of the ability, in order,
      and each line of two or more words fits the text circle where it is drawn. */
  lemma AbilityLinesKeepWords(ability: string, m: Metrics, w: real, h: real, sqrt: real -> real, size: int)
    ensures WordsOf(AbilityWrap(ability, m, w, h, sqrt, size)) == Split(ability)
    ensures Wrapped(s => m.length(size, s), AbilityBound(w, h, m.lineHeight(size), sqrt), AbilityWrap(ability, m, w, h, sqrt, size))
  {
    WrapShape(Split(ability), s => m.length(size, s), AbilityBound(w, h, m.lineHeight(size), sqrt));
  }

  // ---------------------------------------------------------------------------------------
  // Reminder text (`create_reminder_token`, source lines 251-271)
  // ---------------------------------------------------------------------------------------

  /** Reminder text is set at size 60 and wrapped at 80% of the image width; an empty reminder
      draws no text. */
  function ReminderLines(reminder: string, length: (int, string) -> real, w: real): (lines: seq<string>)
    ensures WordsOf(lines) == Split(reminder)
    ensures Wrapped(s => length(60, s), k => 0.8 * w, lines)
  {
    if reminder == "" then
      assert Split(reminder) == [];
      []
    else
      WrapShape(Split(reminder), s => length(60, s), k => 0.8 * w);
      Wrap(Split(reminder), s => length(60, s), k => 0.8 * w)
  }

  // ---------------------------------------------------------------------------------------
  // The character name (`_add_character_name`, source lines 314-342)
  // ---------------------------------------------------------------------------------------

  /** The name is drawn upper-cased at 120 when it fits 60% of the image width, else at 90 when
      it fits there, else at 74 without a check; an empty name is not drawn. */
  function NameFontSize(name: string, length: (int, string) -> real, w: real): (size: Option<int>)
    ensures size.None? <==> name == ""
    ensures size.Some? ==> size.value == 120 || size.value == 90 || size.value == 74
    ensures size.Some? && size.value != 74 ==> length(size.value, Upper(name)) <= 0.6 * w
    ensures size.Some? && length(120, Upper(name)) <= 0.6 * w ==> size.value == 120
    ensures size.Some? && length(90, Upper(name)) <= 0.6 * w ==> size.value >= 90
  {
    var upper := Upper(name);
    if upper == "" then None
    else if length(120, upper) <= 0.6 * w then Some(120)
    else if length(90, upper) <= 0.6 * w then Some(90)
    else Some(74)
  }
}

=== FILE: tokens.dfy ===
/** The per-character decisions of create_tokens.py that do not draw anything: which
    background a token gets, which records produce no token, and where the token images are
    written. */
module Tokens {
  import opened Wrappers
  import opened Strings
  import opened Characters

  // ---------------------------------------------------------------------------------------
  // Background (`_setup_canvas`, source lines 11-29)
  // ---------------------------------------------------------------------------------------

  /** The four backgrounds, one per key of the source's `background_paths`. */
  datatype Background = BothNights | FirstNightOnly | OtherNightOnly | NoNight

  /** The key under which a background's image path is looked up. */
  function BackgroundKey(b: Background): string {
    match b
    case BothNights => "both"
    case FirstNightOnly => "first"
    case OtherNightOnly => "other"
    case NoNight => "none"
  }

  /** The background follows which of the two night-order keys the record has; their values
      play no part. */
  function ChooseBackground(c: Character): (b: Background)
    ensures b == BothNights <==> c.firstNight.Some? && c.otherNight.Some?
    ensures b == FirstNightOnly <==> c.firstNight.Some? && c.otherNight.None?
    ensures b == OtherNightOnly <==> c.firstNight.None? && c.otherNight.Some?
    ensures b == NoNight <==> c.firstNight.None? && c.otherNight.None?
  {
    if c.firstNight.Some? && c.otherNight.Some? then BothNights
    else if c.firstNight.Some? then FirstNightOnly
    else if c.otherNight.Some? then OtherNightOnly
    else NoNight
  }

  /** Two records with the same night-order keys get the same background, and different
      backgrounds are looked up under different keys. */
  lemma BackgroundByPresence(c1: Character, c2: Character)
    ensures c1.firstNight.Some? == c2.firstNight.Some? && c1.otherNight.Some? == c2.otherNight.Some?
            <==> ChooseBackground(c1) == ChooseBackground(c2)
    ensures ChooseBackground(c1) != ChooseBackground(c2) ==>
              BackgroundKey(ChooseBackground(c1)) != BackgroundKey(ChooseBackground(c2))
  {
  }

  // ---------------------------------------------------------------------------------------
  // The skip rule (`create_character_token`, source lines 376-378)
  // ---------------------------------------------------------------------------------------

  /** A record yields a character token when it has a non-empty id other than `_meta`. */
  predicate MakesToken(c: Character) {
    c.id.Some? && c.id.value != "" && c.id.value != "_meta"
  }

  // ---------------------------------------------------------------------------------------
  // Output paths (`_finalize_and_save`, source lines 293-306; `create_reminder_token`, source
  // lines 281-299)
  // ---------------------------------------------------------------------------------------

  /** `os.path.join(a, b)` on a POSIX system: an absolute `b` replaces `a`, otherwise `b` is
      appended after a separator unless `a` is empty or already ends in one. */
  function PathJoin(a: string, b: string): (p: string)
    ensures |b| > 0 && b[0] == '/' ==> p == b
    ensures !(|b| > 0 && b[0] == '/') ==> |p| >= |a| + |b| && p[..|a|] == a && p[|p| - |b|..] == b
  {
    if |b| > 0 && b[0] == '/' then b
    else if a == "" || a[|a| - 1] == '/' then a + b
    else a + "/" + b
  }

  /** A team's directory name: the team lower-cased with every space turned into `_`. It has
      the team's length, no space and no upper-case letter. */
  function TeamDir(team: string): (dir: string)
    ensures |dir| == |team|
    ensures forall i :: 0 <= i < |team| ==> dir[i] == if team[i] == ' ' then '_' else LowerChar(team[i])
    ensures forall i :: 0 <= i < |dir| ==> dir[i] != ' ' && !('A' <= dir[i] <= 'Z')
  {
    var lower := Lower(team);
    ReplaceCharPointwise(lower, ' ', '_');
    ReplaceAll(lower, " ", "_")
  }

  /** `if team_name:` — a team that is present and non-empty. */
  predicate HasTeam(c: Character) {
    c.team.Some? && c.team.value != ""
  }

  /** Where a character token is saved under the output directory `out`: in the team's
      directory when the record has a team, as `<id>.png`; nothing for a skipped record. */
  function CharacterTokenFile(c: Character, out: string): (file: Option<string>)
    ensures file.None? <==> !MakesToken(c)
    ensures file.Some? ==> exists dir :: file.value == dir + "/" + c.id.value + ".png"
    ensures file.Some? && !HasTeam(c) ==> file.value == out + "/" + c.id.value + ".png"
    ensures file.Some? && HasTeam(c) ==>
              file.value == PathJoin(out, TeamDir(c.team.value)) + "/" + c.id.value + ".png"
  {
    if !MakesToken(c) then None
    else
      var dir := if HasTeam(c) then PathJoin(out, TeamDir(c.team.value)) else out;
      Some(dir + "/" + c.id.value + ".png")
  }

  /** With an output directory that does not end in `/` and a team whose directory is not
      absolute, a character token is saved as `<out>/<team dir>/<id>.png`. */
  lemma TeamTokenFile(c: Character, out: string)
    requires MakesToken(c) && HasTeam(c)
    requires out != "" && out[|out| - 1] != '/'
    requires TeamDir(c.team.value)[0] != '/'
    ensures CharacterTokenFile(c, out) == Some(out + "/" + TeamDir(c.team.value) + "/" + c.id.value + ".png")
  {
  }

  /** The directory of a character's reminder tokens: `reminder_tokens`, then the team's
      directory when there is a team, then the id when there is one. */
  function ReminderDir(c: Character): string {
    var base := "reminder_tokens";
    var withTeam := if HasTeam(c) then PathJoin(base, TeamDir(c.team.value)) else base;
    if c.id.Some? && c.id.value != "" then PathJoin(withTeam, c.id.value) else withTeam
  }

  /** The file of reminder number `index` of a character: its text with spaces turned into
      `_`, then `_` and the index. */
  function ReminderTokenFile(c: Character, reminder: string, index: nat): string {
    ReminderDir(c) + "/" + ReplaceAll(reminder, " ", "_") + "_" + NatToString(index) + ".png"
  }

  /** One file per reminder of the record, in list order. */
  function ReminderTokenFiles(c: Character): (files: seq<string>)
    requires c.reminders.Some? ==> AllTexts(c.reminders.value)
    ensures c.reminders.None? ==> files == []
    ensures c.reminders.Some? ==> |files| == |c.reminders.value|
    ensures c.reminders.Some? ==> forall i :: 0 <= i < |files| ==>
              files[i] == ReminderTokenFile(c, c.reminders.value[i].text, i)
  {
    var rs := c.reminders.GetOr([]);
    seq(|rs|, i requires 0 <= i < |rs| => ReminderTokenFile(c, rs[i].text, i))
  }

  /** Where a name ends in `_` and a decimal number, the number is everything after the last
      `_`, so it cannot be shorter than another such number the name ends in. */
  lemma UnderscoreDigitsLength(a: string, n: string, b: string, m: string)
    requires AllDigits(m)
    requires a + "_" + n == b + "_" + m
    ensures |m| <= |n|
  {
    var s := a + "_" + n;
    var t := b + "_" + m;
    assert s[|a|] == '_';
    assert forall k :: |b| + 1 <= k < |t| ==> t[k] == m[k - |b| - 1];
  }

  /** A name ending in `_` and a decimal number determines the number. */
  lemma UnderscoreDigits(a: string, n: string, b: string, m: string)
    requires AllDigits(n) && AllDigits(m)
    requires a + "_" + n == b + "_" + m
    ensures n == m
  {
    UnderscoreDigitsLength(a, n, b, m);
    UnderscoreDigitsLength(b, m, a, n);
    var s := a + "_" + n;
    assert n == s[|s| - |n|..];
    assert m == (b + "_" + m)[|s| - |m|..];
  }

  lemma StripFrame(x: string, u: string, v: string, y: string)
    requires x + u + y == x + v + y
    ensures u == v
  {
    var s := x + u + y;
    assert u == s[|x|..|s| - |y|];
    assert v == (x + v + y)[|x|..|s| - |y|];
  }

  /** Every reminder of a record gets its own file, even when two reminders have the same
      text: the index in the name tells them apart. */
  lemma ReminderFilesDistinct(c: Character, i: nat, j: nat, ri: string, rj: string)
    requires i != j
    ensures ReminderTokenFile(c, ri, i) != ReminderTokenFile(c, rj, j)
  {
    var x := ReminderDir(c) + "/";
    var ui := ReplaceAll(ri, " ", "_") + "_" + NatToString(i);
    var uj := ReplaceAll(rj, " ", "_") + "_" + NatToString(j);
    assert ReminderTokenFile(c, ri, i) == x + ui + ".png";
    assert ReminderTokenFile(c, rj, j) == x + uj + ".png";
    if ReminderTokenFile(c, ri, i) == ReminderTokenFile(c, rj, j) {
      StripFrame(x, ui, uj, ".png");
      UnderscoreDigits(ReplaceAll(ri, " ", "_"), NatToString(i), ReplaceAll(rj, " ", "_"), NatToString(j));
      NatToStringInjective(i, j);
    }
  }
}

=== FILE: wrappers.dfy ===
/** Option and Result values used in place of Python's `None` returns and raised exceptions. */
module Wrappers {

  /** A value that may be absent: a missing dictionary key, a `None` return. */
  datatype Option<+T> = None | Some(value: T) {

    /** The value, or `default` when absent (Python's `dict.get(key, default)`). */
    function GetOr(default: T): T {
      match this
      case Some(v) => v
      case None => default
    }
  }

  /** The outcome of an operation that may raise instead of returning. */
  datatype Result<+T, +E> = Ok(value: T) | Err(error: E)
}
